=== FILE: README.md ===
# Auth0 session core for a Workers edge proxy, modelled in Dafny

This project models the authentication core of an edge worker that sits in
front of an origin and logs users in through Auth0's authorization-code flow.
The core lives in `files/auth0.js`:

- **`authorize`** asks **`verify`** whether the request's `AUTH0-AUTH` cookie
  names a stored session with an access token. If it does not, it stores a
  fresh `state-<token>` record holding the requested path
  (**`generateStateParam`**) and answers with the provider's authorization
  URL (**`generateRedirectUrl`**).
- **`handleRedirect`** is the provider's callback. It accepts a `state`
  only if its record is in the store, which is the CSRF check. It then
  exchanges the `code` for tokens (**`exchangeCodeAndRedirect`**).
  **`persistAuth`** decodes the identity token's payload (**`decodeJWT`**),
  checks its issuer, audience, expiry and issue time (**`validateToken`**),
  and stores the provider's reply under a digest of the salt and subject.
  It answers with a 302 back to the stored path, setting the session
  cookie.
- **`logout`** deletes the cookie's session and clears the cookie.

The model is functional. The key-value store is a `map<string, string>`, and
every handler returns what it answers, or the exception it throws, together
with the store it leaves behind. JSON values are a `Value` datatype, and
JavaScript's property access, truthiness, `String(...)` and `Number(...)`
are written out (`JsValues`), including the `TypeError` that converting
a parsed object with its own `toString` key throws, and string lengths are counted as JavaScript
counts them, in UTF-16 code units. The store, the token endpoint's reply, the
current time and the random state token are parameters. The library
primitives (`atob`, UTF-8 repair, `JSON.parse` and `JSON.stringify`, the
SHA-256 digest with `btoa`, `encodeURIComponent`, `toUTCString`, and the
`cookie` parser) are uninterpreted functions in a `Primitives` record
(`Foreign`). Where a property depends on one of them, the lemma states what
it needs as a precondition, for example a JSON round trip.

Modules:

- `Wrappers`: `Option` and `Result`.
- `Strings`: splitting, joining, trimming, UTF-16 lengths and digits.
- `JsValues`: JavaScript values and conversions.
- `Settings`: the worker's configuration and constants.
- `Foreign`: the uninterpreted library primitives.
- `Jwt`: `decodeJWT`.
- `Claims`: `validateToken`, as written and corrected.
- `Urls`: the two provider URLs.
- `Cookies`: reading and writing the session cookie.
- `Session`: the handlers.
- `Scenarios`: how the handlers compose across requests.

The callback handlers (`HandleRedirect`, `ExchangeCodeAndRedirect`,
`PersistAuth`) take a `Build` argument. `AsWritten` follows the code of
`files/auth0.js`. `Corrected` repairs the two defects listed under "Findings":

- the message of the error thrown for a provider error (auth0.js:139-141)
  carries the provider's `error` value;
- `validateToken` requires numeric `exp` and `iat` (auth0.js:223-231).

Every other member follows the code as written, within the limits listed
under "Left out". For example, `decodeJWT`
throws a `TypeError` for a token without a dot, because `split('.')[1]` is
`undefined` (auth0.js:175). The authorization URL writes its scope through
the `Scope` constant, whose text is the literal of auth0.js:20.

## Model

| member | source | states |
|---|---|---|
| Jwt.PayloadSegment | files/auth0.js:175 | the second piece of `split('.')` exists exactly when the token has a dot, and contains no dot |
| Jwt.PayloadOfCompact | files/auth0.js:175 | for `header.payload.rest` the segment read is the payload, whatever follows it |
| Jwt.ToStandardAlphabet | files/auth0.js:175 | length is kept, in characters and in UTF-16 code units; every `-` becomes `+` and every `_` becomes `/`; all other characters are unchanged, and no `-` or `_` remains |
| Jwt.AlphabetRoundTrip | files/auth0.js:175 | the URL-safe and standard alphabets are mutually inverse on text that avoids the other alphabet's two characters |
| Jwt.RestorePadding | files/auth0.js:177-188 | fails with the thrown string "Illegal base64url string!" exactly when the length in UTF-16 code units is 1 mod 4; otherwise the input is extended by 0, 2 or 1 `=` to a multiple of four code units |
| Jwt.EncodedLengthAccepted | files/auth0.js:177-188 | an unpadded encoding of any number of bytes is accepted and padded to four code units per three bytes, rounded up |
| Jwt.AstralCharacterPadded | files/auth0.js:177-184 | a segment holding one character outside the Basic Multilingual Plane is two code units long, so it is padded with `==` rather than refused |
| Jwt.DecodeJwt | files/auth0.js:174-198 | TypeError exactly when the token is not a string or has no dot; the padding error exactly when the payload segment's UTF-16 length is 1 mod 4; otherwise `InvalidCharacterError` exactly when `atob` refuses the padded text, and else the UTF-8 reading of `atob`'s output, or that output itself when it is not UTF-8 |
| Jwt.RestoreEncodedSegment | files/auth0.js:175-190 | un-padding and URL-alphabet encoding of standard base64 text is undone by the alphabet map plus padding, and produces no dot |
| Jwt.DecodeEncodedPayload | files/auth0.js:174-198 | decoding a token whose payload an encoder produced from `b` hands exactly `b` to `atob` |
| JsValues.PaddedNumeral | files/auth0.js:223-229 | a numeral claim written as text with white space around it compares as its digits' value |
| Claims.SecondsCeil | files/auth0.js:202 | the result is the ceiling of milliseconds over 1000: `(s-1)*1000 < ms <= s*1000` |
| Claims.DayEarlierSeconds | files/auth0.js:227-229 | moving the clock back one day moves the second count back exactly 86400 |
| Claims.NormalizeIssuer | files/auth0.js:205-209 | one trailing slash is removed when present, otherwise the issuer is unchanged |
| Claims.IssuerNormalization | files/auth0.js:205-215 | the normalised issuer equals the domain exactly when the issuer is the domain plus `/`, or the domain itself when the domain does not end in `/` |
| Claims.IssuerSlashes | files/auth0.js:207-211 | for a domain without trailing slash, the domain and domain plus one slash are accepted and two slashes are not |
| Claims.FirstRejection | files/auth0.js:205-231 | no rejection exactly when issuer and audience match and neither time claim throws on conversion or is too early; an unreadable issuer exactly when the claims are not an object with a string `iss`; a throwing conversion is reported exactly when the expiry's conversion throws, or expiry passes and the issue time's conversion throws; the time checks are reached only by claims whose issuer and audience pass, and the issue time only after expiry passes |
| Claims.ValidateTokenAsWritten | files/auth0.js:200-238 | true exactly when the claims are an object with a string issuer accepted for the domain, an audience strictly equal to the client id, `exp` and `iat` whose conversion does not throw, and each of them NaN or at least now and now minus one day respectively |
| Claims.ValidateToken | files/auth0.js:200-238 | the same with `exp` and `iat` required to be numbers; it never accepts what the as-written check rejects |
| Claims.TimeBoundaries | files/auth0.js:223-231 | both time bounds are inclusive: `exp` equal to the current second and `iat` exactly one day ago pass, one second less fails |
| Claims.MissingTimesAcceptedAsWritten | files/auth0.js:223-231 | claims with issuer and audience but no `exp` or `iat` pass as written and fail the corrected check |
| Claims.BlankExpiryRejected | files/auth0.js:223-225 | a blank `exp` reads as 0, not NaN, so both checks reject it as expired |
| Claims.UnconvertibleExpiryRejected | files/auth0.js:223-237 | an `exp` object with its own `toString` key makes the comparison throw, and the caught error turns the token down; a plain object is NaN and passes as written |
| Claims.AudienceMustMatch | files/auth0.js:217-221 | any audience other than the client id is rejected |
| Urls.AuthorizeUrl | files/auth0.js:15-20 | the authorization URL is the domain's `/authorize`, `?`, and the `&`-joined `name=value` pieces of response type `code`, client id, callback, scope and the encoded state |
| Urls.LogoutUrl | files/auth0.js:21 | the logout URL is the domain's `/v2/logout`, `?`, and the pieces for the client id and the return target |
| Urls.AuthorizeUrlQuery | files/auth0.js:15-20 | reading back the authorization URL's query gives, in order, response type `code`, client id, callback, scope and the encoded state |
| Urls.LogoutUrlQuery | files/auth0.js:21 | reading back the logout URL's query gives the client id and the return target |
| Cookies.AuthCookieValue | files/auth0.js:111-121 | no value without a header or when the header does not mention the cookie's name; otherwise exactly the parser's entry for `AUTH0-AUTH` |
| Cookies.SessionCookie | files/auth0.js:167 | the login cookie is `AUTH0-AUTH=<id>`, `Secure`, `HttpOnly`, `SameSite=Lax` and `Expires=<date>` joined by `;` |
| Cookies.SessionCookieParts | files/auth0.js:165-168 | the login cookie splits back into those five attributes, and its name-value pair is the cookie's name and the id |
| Cookies.ClearingCookie | files/auth0.js:77 | the logout cookie is `AUTH0-AUTH=""`, `SameSite=Lax`, `Secure` and an empty last piece joined by `;` |
| Cookies.ClearingCookieParts | files/auth0.js:75-79 | the logout cookie sets `AUTH0-AUTH` to `""` with `SameSite=Lax` and `Secure` only |
| Session.CookieSession | files/auth0.js:86-88 | a session id is taken only when the cookie's value is present and non-empty |
| Session.DecodeClaims | files/auth0.js:103 | a decoding failure propagates, a decoded payload that `JSON.parse` refuses throws `SyntaxError`, and a result is the parsed payload text |
| Session.Verify | files/auth0.js:85-109 | anonymous exactly when there is no session cookie; the not-found error when the key is missing or empty; the parse error when the record is not JSON; a `TypeError` when the record is `null`; otherwise the decoding error of its `id_token`, or the session holding its `access_token`, its `id_token` and the decoded claims |
| Session.GenerateStateParam | files/auth0.js:240-252 | adds exactly the key `state-<token>` holding the serialised original path, leaving every other key unchanged |
| Session.Authorize | files/auth0.js:32-41 | access is granted, without a store write, exactly when `verify` finds a truthy access token; otherwise (no session cookie, or a session whose access token is falsy) the answer is the authorization URL and the only write is the state record; `verify`'s error propagates with the store unchanged |
| Session.Logout | files/auth0.js:69-83 | with a session cookie, exactly that key is deleted and the clearing cookie is set; without one, nothing changes |
| Session.DigestInput | files/auth0.js:154 | a `TypeError` exactly when converting `sub` to text throws; otherwise the digested text is the salt, a dash, then `String(sub)` |
| Session.DigestInputPerSubject | files/auth0.js:154-157 | two claims share the digested text exactly when their subjects read the same as text |
| Session.SessionId | files/auth0.js:154-157 | a `TypeError` exactly when converting `sub` throws; otherwise the session key depends on the claims only through `String(sub)` |
| Session.PersistAuth | files/auth0.js:146-171 | an undecodable token throws and a token the build's `validateToken` rejects answers 401, both without a write; an accepted one whose `sub` cannot be converted to text throws a `TypeError` without a write; any other accepted one writes exactly the reply under the subject's session key and answers 302 to the stored path (`/` when undefined) with the session cookie expiring a day later |
| Session.ExchangeFailureAsWritten | files/auth0.js:139-141 | the thrown error's message is always empty |
| Session.ExchangeFailure | files/auth0.js:139-141 | the thrown error carries the provider's `error` string; it is a `TypeError` exactly when that value's conversion to text throws |
| Session.ProviderReasonLost | files/auth0.js:139-141 | for the reply `{"error": "invalid_grant"}` the reason is lost as written and kept when corrected |
| Session.ExchangeCodeAndRedirect | files/auth0.js:123-144 | a failed request, a null reply or a reply with a truthy `error` throws with the store unchanged; the message is empty as written; corrected, the error is `new Error(body.error)` for any truthy `error`, so a string keeps the provider's reason and an unconvertible value is a `TypeError`; otherwise the reply goes to `persistAuth` |
| Session.HandleRedirect | files/auth0.js:43-67 | answers `null` exactly when `state` is absent or names no stored record; a known state without a code answers `{}`; no key is ever deleted, at most one is written, and only a 302 writes |
| Scenarios.ReturningCookieNamesSession | files/auth0.js:111-121 | a request returning `AUTH0-AUTH=<id>` names the session `id` |
| Scenarios.LoginThenVerify | files/auth0.js:85-109 | after a successful login in either build, `verify` with the returned cookie yields the stored tokens and claims, and `authorize` grants exactly when the access token is truthy, and otherwise writes the state record and answers with the authorization URL |
| Scenarios.LogoutThenVerify | files/auth0.js:69-93 | after logout the same cookie makes `verify` and `authorize` fail with the not-found error |
| Scenarios.AuthorizeThenCallback | files/auth0.js:32-67 | the state an anonymous `authorize` hands out is accepted by the callback at `/auth`; without a code it answers `{}`, with one it exchanges the code for the stored path |
| Scenarios.AuthorizeThenLogin | files/auth0.js:43-171 | an anonymous visit followed by an accepted callback answers 302 back to the original path with the session cookie, and stores the reply under the session key |
| Scenarios.WrongAudienceUnauthorized | files/auth0.js:147-152 | an identity token for another client answers 401 with the store unchanged, in either build |
| Scenarios.ProviderErrorBeforeWrite | files/auth0.js:139-143 | a provider error reply throws before any write; the message is empty as written and the provider's reason when corrected |
| Scenarios.UnconvertibleSubjectThrows | files/auth0.js:146-157 | an accepted identity token whose `sub` is an object with its own `toString` key throws a `TypeError` before anything is stored, in either build |
| Scenarios.MissingTimesStoredAsWritten | files/auth0.js:146-171 | as written, an identity token without `exp` and `iat` is stored and answered with a 302; corrected, it is answered with 401 and nothing is stored |

## Left out

- The HTTP plumbing: request routing, the origin fetch and response assembly, including `files/entry.js`. This model sees only the core's inputs and outputs.
- `fetch`: the token endpoint is a function from the request body to the parsed reply or an exception. The random-state service is reduced to the `state` string it returns. A reply without `Data`, which would store `state-undefined`, is not modelled.
- The library primitives are uninterpreted and stated as needed per lemma. These are base64 `atob`, `decodeURIComponent(escape(...))`, JSON, SHA-256 with `btoa`, `encodeURIComponent`, `toUTCString` and the `cookie` parser. In particular, `atob` refusing text outside Latin-1 is `atob`'s business, not the padding step's.
- Store expiry (the state record's one-day TTL and the session's expiration), concurrency between requests, and the store's own failures.
- The clock is read once per request (`nowMs`). The source reads it separately in `validateToken` and `persistAuth`. `setDate(±1)` is taken as ±86 400 000 ms, without daylight-saving shifts.
- Numbers are integers. `Number(...)` trims JavaScript white space and reads blank text as 0 and decimal digits with an optional `+` or `-`, along with booleans, `null` and arrays. Fractions, exponents, `0x`/`0o`/`0b` literals and `Infinity` are read as NaN. That can change a time check's outcome: as written the model lets such a claim pass where JavaScript compares it (`"exp": "1e3"` is 1000 in JavaScript and rejected, NaN here and accepted), and the corrected check refuses it.
- `console.log` calls are not modelled.
- Session.DigestInput: an integer `sub` of magnitude 10^21 or more is written out in full, where JavaScript's `String` switches to exponent notation (`String(1e21)` is `"1e+21"`). Numbers are integers here, so the rounding of JSON numbers to doubles is not modelled either.
- Urls.AuthorizeUrlQuery: proved only when the domain has no `?` and the inserted values contain no `&`. The source inserts the client id and callback unencoded, so other values break the query as written.
- Urls.LogoutUrlQuery: under the same restriction.

## Findings

| source | as written | input that shows it | evidently intended | confidence | as-written member | corrected member |
|---|---|---|---|---|---|---|
| files/auth0.js:139-141 | the error thrown for a provider error reads `error` from the request's JSON text, a string, so the message is always empty | token reply `{"error": "invalid_grant"}` | the error carries the provider's `error` value | high; not executed | Session.ExchangeFailureAsWritten | Session.ExchangeFailure |
| files/auth0.js:223-231 | `exp < now` and `iat < now - 1 day` are false for a missing or non-numeric claim, so such a token passes | claims `{"iss": domain, "aud": clientId}` with no `exp` and no `iat` | a token without numeric `exp` and `iat` is rejected | medium; not executed | Claims.ValidateTokenAsWritten | Claims.ValidateToken |

`Session.ProviderReasonLost`, `Claims.MissingTimesAcceptedAsWritten` and
`Scenarios.MissingTimesStoredAsWritten` show each discrepancy on the input
given. The callback handlers are modelled in both builds.

=== FILE: claims.dfy ===
/** Validation of decoded token claims (`validateToken`): issuer, audience,
    expiry and issue time, checked in that order; every failure, including a
    thrown `TypeError`, ends in `false`. */
module Claims {
  import opened Wrappers
  import opened Strings
  import opened JsValues
  import opened Settings

  /** `Math.ceil(ms / 1000)`: whole seconds, rounded up. */
  function SecondsCeil(ms: int): (s: int)
    ensures (s - 1) * 1000 < ms <= s * 1000
  {
    if ms % 1000 == 0 then ms / 1000 else ms / 1000 + 1
  }

  /** The issue-time bound, computed from the clock moved back one day, is the
      current second minus one day. */
  lemma DayEarlierSeconds(ms: int)
    ensures SecondsCeil(ms - DayMs) == SecondsCeil(ms) - DaySeconds
  {
    var a := SecondsCeil(ms - DayMs);
    var b := SecondsCeil(ms);
    assert (a + DaySeconds - 1) * 1000 < ms <= (a + DaySeconds) * 1000;
  }

  /** `iss` with one trailing slash removed. */
  function NormalizeIssuer(iss: string): (r: string)
    ensures EndsWith(iss, "/") ==> r + "/" == iss
    ensures !EndsWith(iss, "/") ==> r == iss
  {
    if EndsWith(iss, "/") then iss[..|iss| - 1] else iss
  }

  /** The issuers the check lets through for a configured domain, stated
      without the normalisation step. */
  predicate IssuerAccepted(iss: string, domain: string) {
    iss == domain + "/" || (iss == domain && !EndsWith(domain, "/"))
  }

  /** Stripping one slash and comparing accepts exactly `IssuerAccepted`. */
  lemma IssuerNormalization(iss: string, domain: string)
    ensures NormalizeIssuer(iss) == domain <==> IssuerAccepted(iss, domain)
  {
    if EndsWith(iss, "/") {
      if iss == domain {
        assert EndsWith(domain, "/");
      }
      if iss == domain + "/" {
        assert iss[..|iss| - 1] == domain;
      }
    } else {
      if iss == domain + "/" {
        assert EndsWith(iss, "/");
      }
    }
  }

  /** A domain without a trailing slash is matched by itself and by itself
      with one slash, and not with two. */
  lemma IssuerSlashes(domain: string)
    requires !EndsWith(domain, "/")
    ensures NormalizeIssuer(domain) == domain
    ensures NormalizeIssuer(domain + "/") == domain
    ensures NormalizeIssuer(domain + "//") != domain
  {
    IssuerNormalization(domain, domain);
    IssuerNormalization(domain + "/", domain);
    IssuerNormalization(domain + "//", domain);
    assert domain + "//" != domain + "/";
  }

  /** Why a token was turned down; used only for the log line. */
  datatype Rejection =
    | UnreadableIssuer   // `token.iss` or `iss.endsWith` threw a TypeError
    | IssuerMismatch
    | AudienceMismatch
    | UnreadableTime     // converting `exp` or `iat` for `<` threw a TypeError
    | Expired
    | IssuedTooLongAgo

  /** `v < bound` as JavaScript evaluates it: false whenever `v` is NaN. */
  predicate JsLess(v: Value, bound: int) {
    var n := ToNumber(v);
    n.Some? && n.value < bound
  }

  /** The time check a claim fails. With `rejectNaN` a claim that is not a
      number fails; without it, it passes as in the source. */
  predicate TooEarly(v: Value, bound: int, rejectNaN: bool) {
    if rejectNaN then !(ToNumber(v).Some? && ToNumber(v).value >= bound) else JsLess(v, bound)
  }

  /** A time claim survives its comparison: converting it does not throw
      and it is not too early. */
  predicate TimePasses(v: Value, bound: int, rejectNaN: bool) {
    !PrimitiveThrows(v) && !TooEarly(v, bound, rejectNaN)
  }

  /** Issuer and audience both pass. */
  predicate IdentityMatches(token: Value, cfg: Config) {
    && token.Obj?
    && Field(token, "iss").Str?
    && IssuerAccepted(Field(token, "iss").s, cfg.domain)
    && Field(token, "aud") == Str(cfg.clientId)
  }

  /** The first check the token fails, in the source's order, or `None`.
      The time checks are reached only by a token whose issuer and audience
      pass, and the issue time only by one that has not expired. */
  function FirstRejection(token: Value, cfg: Config, nowMs: int, rejectNaN: bool): (r: Option<Rejection>)
    ensures r.None? <==>
      && IdentityMatches(token, cfg)
      && TimePasses(Field(token, "exp"), SecondsCeil(nowMs), rejectNaN)
      && TimePasses(Field(token, "iat"), SecondsCeil(nowMs) - DaySeconds, rejectNaN)
    ensures r == Some(UnreadableIssuer) <==> !token.Obj? || !Field(token, "iss").Str?
    ensures r == Some(IssuerMismatch) <==>
      token.Obj? && Field(token, "iss").Str? && !IssuerAccepted(Field(token, "iss").s, cfg.domain)
    ensures r == Some(UnreadableTime) || r == Some(Expired) || r == Some(IssuedTooLongAgo) ==>
      IdentityMatches(token, cfg)
    ensures r == Some(UnreadableTime) <==>
      IdentityMatches(token, cfg) &&
      (PrimitiveThrows(Field(token, "exp")) ||
       (!TooEarly(Field(token, "exp"), SecondsCeil(nowMs), rejectNaN) && PrimitiveThrows(Field(token, "iat"))))
    ensures r == Some(Expired) <==>
      IdentityMatches(token, cfg) && !PrimitiveThrows(Field(token, "exp")) &&
      TooEarly(Field(token, "exp"), SecondsCeil(nowMs), rejectNaN)
    ensures r == Some(IssuedTooLongAgo) ==> TimePasses(Field(token, "exp"), SecondsCeil(nowMs), rejectNaN)
  {
    var iss := Field(token, "iss");
    IssuerNormalization(if iss.Str? then iss.s else "", cfg.domain);
    DayEarlierSeconds(nowMs);
    if Nullish(token) || !iss.Str? then Some(UnreadableIssuer)
    else if NormalizeIssuer(iss.s) != cfg.domain then Some(IssuerMismatch)
    else if Field(token, "aud") != Str(cfg.clientId) then Some(AudienceMismatch)
    else if PrimitiveThrows(Field(token, "exp")) then Some(UnreadableTime)
    else if TooEarly(Field(token, "exp"), SecondsCeil(nowMs), rejectNaN) then Some(Expired)
    else if PrimitiveThrows(Field(token, "iat")) then Some(UnreadableTime)
    else if TooEarly(Field(token, "iat"), SecondsCeil(nowMs - DayMs), rejectNaN) then Some(IssuedTooLongAgo)
    else None
  }

  /** `validateToken` as written: `exp < now` and `iat < now - 1 day` are
      plain JavaScript comparisons, so a missing or non-numeric `exp` or `iat`
      is never "before" anything and passes. Only a claim whose conversion
      throws is turned down. */
  function ValidateTokenAsWritten(token: Value, cfg: Config, nowMs: int): (ok: bool)
    ensures ok <==>
      && token.Obj?
      && Field(token, "iss").Str?
      && IssuerAccepted(Field(token, "iss").s, cfg.domain)
      && Field(token, "aud") == Str(cfg.clientId)
      && !PrimitiveThrows(Field(token, "exp")) && !PrimitiveThrows(Field(token, "iat"))
      && (ToNumber(Field(token, "exp")).None? || ToNumber(Field(token, "exp")).value >= SecondsCeil(nowMs))
      && (ToNumber(Field(token, "iat")).None? || ToNumber(Field(token, "iat")).value >= SecondsCeil(nowMs) - DaySeconds)
  {
    FirstRejection(token, cfg, nowMs, false).None?
  }

  /** `validateToken` with the evidently intended time checks: `exp` and
      `iat` must be numbers within bounds. The rest of the model uses this. */
  function ValidateToken(token: Value, cfg: Config, nowMs: int): (ok: bool)
    ensures ok <==>
      && token.Obj?
      && Field(token, "iss").Str?
      && IssuerAccepted(Field(token, "iss").s, cfg.domain)
      && Field(token, "aud") == Str(cfg.clientId)
      && !PrimitiveThrows(Field(token, "exp")) && !PrimitiveThrows(Field(token, "iat"))
      && ToNumber(Field(token, "exp")).Some?
      && ToNumber(Field(token, "exp")).value >= SecondsCeil(nowMs)
      && ToNumber(Field(token, "iat")).Some?
      && ToNumber(Field(token, "iat")).value >= SecondsCeil(nowMs) - DaySeconds
    ensures ok ==> ValidateTokenAsWritten(token, cfg, nowMs)
  {
    FirstRejection(token, cfg, nowMs, true).None?
  }

  /** Claims with an issuer, an audience and the two time claims as given. */
  function ClaimsWith(iss: string, aud: string, exp: Value, iat: Value): (c: Value)
    ensures c.Obj? && "toString" !in c.fields
    ensures Field(c, "iss") == Str(iss) && Field(c, "aud") == Str(aud)
    ensures Field(c, "exp") == exp && Field(c, "iat") == iat
  {
    Obj(map["iss" := Str(iss), "aud" := Str(aud), "exp" := exp, "iat" := iat])
  }

  /** The time bounds are inclusive: expiry at the current second and issue
      exactly one day ago are accepted, one second less is not. */
  lemma TimeBoundaries(cfg: Config, nowMs: int)
    requires !EndsWith(cfg.domain, "/")
    ensures var now := SecondsCeil(nowMs);
      && ValidateToken(ClaimsWith(cfg.domain, cfg.clientId, Num(now), Num(now - DaySeconds)), cfg, nowMs)
      && !ValidateToken(ClaimsWith(cfg.domain, cfg.clientId, Num(now - 1), Num(now)), cfg, nowMs)
      && !ValidateToken(ClaimsWith(cfg.domain, cfg.clientId, Num(now), Num(now - DaySeconds - 1)), cfg, nowMs)
  {
  }

  /** The source accepts a token that carries neither `exp` nor `iat`; the
      corrected check does not. */
  lemma MissingTimesAcceptedAsWritten(cfg: Config, nowMs: int)
    requires !EndsWith(cfg.domain, "/")
    ensures var token := Obj(map["iss" := Str(cfg.domain), "aud" := Str(cfg.clientId)]);
      ValidateTokenAsWritten(token, cfg, nowMs) && !ValidateToken(token, cfg, nowMs)
  {
  }

  /** The audience check is exact: any other `aud` fails, whatever else holds. */
  lemma AudienceMustMatch(token: Value, cfg: Config, nowMs: int)
    requires Field(token, "aud") != Str(cfg.clientId)
    ensures !ValidateToken(token, cfg, nowMs)
    ensures FirstRejection(token, cfg, nowMs, true) != None
  {
  }

  /** A blank `exp` is the number 0 to the comparison, not NaN, so after
      the epoch both checks reject it as expired. */
  lemma BlankExpiryRejected(cfg: Config, nowMs: int, iat: int)
    requires SecondsCeil(nowMs) > 0
    ensures var token := ClaimsWith(cfg.domain + "/", cfg.clientId, Str(" "), Num(iat));
      && FirstRejection(token, cfg, nowMs, false) == Some(Expired)
      && !ValidateTokenAsWritten(token, cfg, nowMs)
      && !ValidateToken(token, cfg, nowMs)
  {
    var token := ClaimsWith(cfg.domain + "/", cfg.clientId, Str(" "), Num(iat));
    BlankIsZero(" ");
    assert IdentityMatches(token, cfg);
    ExpiredRejected(token, cfg, nowMs);
  }

  /** Claims whose issuer and audience pass and whose `exp` is a number
      before the current second are expired in both checks. */
  lemma ExpiredRejected(token: Value, cfg: Config, nowMs: int)
    requires IdentityMatches(token, cfg)
    requires !PrimitiveThrows(Field(token, "exp"))
    requires ToNumber(Field(token, "exp")).Some? && ToNumber(Field(token, "exp")).value < SecondsCeil(nowMs)
    ensures FirstRejection(token, cfg, nowMs, false) == Some(Expired)
    ensures FirstRejection(token, cfg, nowMs, true) == Some(Expired)
    ensures !ValidateTokenAsWritten(token, cfg, nowMs) && !ValidateToken(token, cfg, nowMs)
  {
  }

  /** An `exp` that is an object with its own `toString` key makes the
      comparison throw; the check catches it and turns the token down,
      where a plain object, read as NaN, passes as written. */
  lemma UnconvertibleExpiryRejected(cfg: Config, nowMs: int, iat: int)
    requires SecondsCeil(nowMs) - DaySeconds <= iat
    ensures var plain := ClaimsWith(cfg.domain + "/", cfg.clientId, Obj(map[]), Num(iat));
      var hiding := ClaimsWith(cfg.domain + "/", cfg.clientId, Obj(map["toString" := Num(1)]), Num(iat));
      && FirstRejection(hiding, cfg, nowMs, false) == Some(UnreadableTime)
      && !ValidateTokenAsWritten(hiding, cfg, nowMs)
      && ValidateTokenAsWritten(plain, cfg, nowMs)
  {
    var plain := ClaimsWith(cfg.domain + "/", cfg.clientId, Obj(map[]), Num(iat));
    var hiding := ClaimsWith(cfg.domain + "/", cfg.clientId, Obj(map["toString" := Num(1)]), Num(iat));
    assert IdentityMatches(hiding, cfg) && IdentityMatches(plain, cfg);
    assert PrimitiveThrows(Field(hiding, "exp"));
    assert !PrimitiveThrows(Field(plain, "exp")) && ToNumber(Field(plain, "exp")).None?;
  }
}

=== FILE: cookies.dfy ===
/** The session cookie: reading its value from a `Cookie` header, and the two
    `Set-cookie` values the core writes (login and logout). */
module Cookies {
  import opened Wrappers
  import opened Strings
  import opened Settings
  import opened Foreign

  /** `getAuthCookieValue`: the cookie library is consulted only when the
      header is present, non-empty and mentions the cookie's name; `None`
      stands for `undefined`. */
  function AuthCookieValue(header: Option<string>, prims: Primitives): (sub: Option<string>)
    ensures header.None? || !Contains(header.value, CookieKey) ==> sub.None?
    ensures sub.Some? <==> header.Some? && Contains(header.value, CookieKey) && CookieKey in prims.parseCookies(header.value)
    ensures sub.Some? ==> sub.value == prims.parseCookies(header.value)[CookieKey]
  {
    match header
    case None => None
    case Some(h) =>
      if h != "" && Contains(h, CookieKey) && CookieKey in prims.parseCookies(h)
      then Some(prims.parseCookies(h)[CookieKey])
      else None
  }

  /** The attributes of the login cookie, in the order it lists them. */
  function SessionCookieAttributes(id: string, expires: string): seq<string> {
    [CookieKey + "=" + id, " Secure", " HttpOnly", " SameSite=Lax", " Expires=" + expires]
  }

  /** The cookie set at login, expiring with the stored session: its
      attributes joined by `;`. */
  function SessionCookie(id: string, expires: string): (c: string)
    ensures c == Join(SessionCookieAttributes(id, expires), ';')
  {
    SessionCookieText(id, expires);
    CookieKey + "=" + id + "; Secure; HttpOnly; SameSite=Lax; Expires=" + expires
  }

  /** The attributes of the logout cookie, in the order it lists them; the
      final `;` leaves an empty last piece. */
  function ClearingCookieAttributes(): seq<string> {
    [CookieKey + "=\"\"", " SameSite=Lax", " Secure", ""]
  }

  /** The cookie set at logout, an empty quoted value: its attributes
      joined by `;`. */
  function ClearingCookie(): (c: string)
    ensures c == Join(ClearingCookieAttributes(), ';')
  {
    ClearingCookieText();
    CookieKey + "=\"\"; SameSite=Lax; Secure;"
  }

  /** The logout cookie's template is its four pieces joined by `;`. */
  lemma ClearingCookieText()
    ensures CookieKey + "=\"\"; SameSite=Lax; Secure;" == Join([CookieKey + "=\"\"", " SameSite=Lax", " Secure", ""], ';')
  {
    var parts := [CookieKey + "=\"\"", " SameSite=Lax", " Secure", ""];
    Join4(parts[0], parts[1], parts[2], parts[3], ';');
    assert CookieKey + "=\"\"; SameSite=Lax; Secure;" == parts[0] + [';'] + parts[1] + [';'] + parts[2] + [';'] + parts[3];
  }

  /** The cookie's name, then the first `=`, then the value. */
  lemma CookieNameValue(value: string)
    ensures NameValue(CookieKey + "=" + value) == (CookieKey, value)
  {
    assert '=' !in CookieKey;
    SplitOnceAt(CookieKey, value, '=');
    assert CookieKey + "=" + value == CookieKey + ['='] + value;
  }

  /** The login cookie names the session id under the cookie's name and
      carries `Secure`, `HttpOnly`, `SameSite=Lax` and the expiry, provided
      neither the id nor the date contains `;`. An id ending in base64
      padding keeps its `=`: only the first `=` separates name and value. */
  lemma SessionCookieParts(id: string, expires: string)
    requires ';' !in id && ';' !in expires
    ensures Split(SessionCookie(id, expires), ';') ==
      [CookieKey + "=" + id, " Secure", " HttpOnly", " SameSite=Lax", " Expires=" + expires]
    ensures NameValue(CookieKey + "=" + id) == (CookieKey, id)
  {
    var parts := SessionCookieAttributes(id, expires);
    assert ';' !in CookieKey;
    assert forall i :: 0 <= i < |parts| ==> ';' !in parts[i];
    JoinThenSplit(parts, ';');
    CookieNameValue(id);
  }

  /** The login cookie's template is its five pieces joined by `;`. */
  lemma SessionCookieText(id: string, expires: string)
    ensures CookieKey + "=" + id + "; Secure; HttpOnly; SameSite=Lax; Expires=" + expires ==
      Join([CookieKey + "=" + id, " Secure", " HttpOnly", " SameSite=Lax", " Expires=" + expires], ';')
  {
    var first := CookieKey + "=" + id;
    SessionCookieLiteral();
    Regroup(first, [';'], " Secure", [';'], " HttpOnly", [';'], " SameSite=Lax", [';'], " Expires=", expires);
    Join5(first, " Secure", " HttpOnly", " SameSite=Lax", " Expires=" + expires, ';');
  }

  /** The attribute text of the login cookie, piece by piece. */
  lemma SessionCookieLiteral()
    ensures "; Secure; HttpOnly; SameSite=Lax; Expires=" ==
      [';'] + " Secure" + [';'] + " HttpOnly" + [';'] + " SameSite=Lax" + [';'] + " Expires="
  {
  }

  /** Regrouping of a concatenation whose middle is a run of eight pieces. */
  lemma Regroup(f: string, p1: string, p2: string, p3: string, p4: string, p5: string, p6: string,
                p7: string, p8: string, x: string)
    ensures f + (p1 + p2 + p3 + p4 + p5 + p6 + p7 + p8) + x == f + p1 + p2 + p3 + p4 + p5 + p6 + p7 + (p8 + x)
  {
  }

  /** The logout cookie names an empty quoted value and carries
      `SameSite=Lax` and `Secure`, with no expiry and no `HttpOnly`. */
  lemma ClearingCookieParts()
    ensures Split(ClearingCookie(), ';') == [CookieKey + "=\"\"", " SameSite=Lax", " Secure", ""]
    ensures NameValue(CookieKey + "=\"\"") == (CookieKey, "\"\"")
  {
    var parts := ClearingCookieAttributes();
    assert forall i :: 0 <= i < |parts| ==> ';' !in parts[i];
    JoinThenSplit(parts, ';');
    CookieNameValue("\"\"");
    assert CookieKey + "=\"\"" == CookieKey + "=" + "\"\"";
  }
}

=== FILE: foreign.dfy ===
/** The platform and library functions the core calls but this model does not
    open up: base64 decoding, UTF-8 repair, JSON, SHA-256 digest, URI encoding,
    date formatting and the cookie parser. They are inputs: every property
    proved below holds whatever these functions do, unless a lemma states
    what it assumes of them. */
module Foreign {
  import opened Wrappers
  import opened JsValues

  datatype Primitives = Primitives(
    /** `atob`; `None` where it throws `InvalidCharacterError`. */
    atob: string -> Option<string>,
    /** `decodeURIComponent(escape(s))`; `None` where it throws. */
    utf8Decode: string -> Option<string>,
    /** `JSON.parse`; `None` where it throws `SyntaxError`. */
    parseJson: string -> Option<Value>,
    /** `JSON.stringify`. */
    stringify: Value -> string,
    /** `btoa` of the SHA-256 digest of the UTF-8 text. */
    digestBase64: string -> string,
    /** `encodeURIComponent`. */
    encodeUriComponent: string -> string,
    /** `new Date(ms).toUTCString()`. */
    utcString: int -> string,
    /** The `cookie` library's `parse` of a `Cookie` header. */
    parseCookies: string -> map<string, string>)
}

=== FILE: jsvalues.dfy ===
/** The JavaScript values the core handles after `JSON.parse`, with the few
    language rules it relies on: truthiness, property reads, numeric
    conversion for `<`, and conversion to text in template literals. */
module JsValues {
  import opened Wrappers
  import opened Strings

  /** A parsed JSON value, plus `undefined` for a property that is not there.
      Numbers are integral here. */
  datatype Value =
    | Undefined
    | Null
    | Bool(b: bool)
    | Num(n: int)
    | Str(s: string)
    | Arr(items: seq<Value>)
    | Obj(fields: map<string, Value>)

  /** What the core can throw. `ThrownString` is a bare `throw '...'`;
      `ErrorWithMessage` is `new Error(message)`. */
  datatype Exception =
    | TypeError
    | SyntaxError
    | InvalidCharacterError
    | ErrorWithMessage(message: string)
    | ThrownString(text: string)

  predicate Nullish(v: Value) {
    v.Undefined? || v.Null?
  }

  /** `!!v`. */
  predicate Truthy(v: Value) {
    match v
    case Undefined => false
    case Null => false
    case Bool(b) => b
    case Num(n) => n != 0
    case Str(s) => s != ""
    case Arr(_) => true
    case Obj(_) => true
  }

  /** `v[key]` on a value that is not `null` or `undefined`. Only the property
      names the core reads are meant; none of them is a built-in property of
      strings, numbers, booleans or arrays, so those read `undefined`. */
  function Field(v: Value, key: string): Value {
    if v.Obj? && key in v.fields then v.fields[key] else Undefined
  }

  /** `v.key`, which throws a `TypeError` on `null` and `undefined`. */
  function Get(v: Value, key: string): (r: Result<Value, Exception>)
    ensures r.Failure? <==> Nullish(v)
    ensures r.Failure? ==> r.error == TypeError
    ensures r.Success? && r.value != Undefined ==> v.Obj? && key in v.fields && v.fields[key] == r.value
  {
    if Nullish(v) then Failure(TypeError) else Success(Field(v, key))
  }

  /** Whether `String(v)` or `Number(v)` throws a `TypeError`. An object is
      converted through its `toString` and `valueOf` methods. A parsed
      object with its own `toString` key hides the inherited method behind a
      value that cannot be called, and the inherited `valueOf` returns the
      object itself, so no primitive is found. An array is converted through
      its elements other than `null` and `undefined`. */
  predicate PrimitiveThrows(v: Value)
    decreases v
  {
    match v
    case Obj(fields) => "toString" in fields
    case Arr(items) => exists i :: 0 <= i < |items| && PrimitiveThrows(items[i])
    case _ => false
  }

  /** The text `String(v)` gives when it does not throw. */
  function PrimitiveText(v: Value): string
    decreases v
  {
    match v
    case Undefined => "undefined"
    case Null => "null"
    case Bool(b) => if b then "true" else "false"
    case Num(n) => IntToString(n)
    case Str(s) => s
    case Arr(items) =>
      if |items| == 0 then ""
      else Join(seq(|items|, i requires 0 <= i < |items| =>
                      if Nullish(items[i]) then "" else PrimitiveText(items[i])), ',')
    case Obj(_) => "[object Object]"
  }

  /** `String(v)`, as a template literal or `new Error(v)` converts it. */
  function ToJsString(v: Value): (r: Result<string, Exception>)
    ensures r.Failure? <==> PrimitiveThrows(v)
    ensures r.Failure? ==> r.error == TypeError
    ensures v.Str? ==> r == Success(v.s)
    ensures v.Undefined? ==> r == Success("undefined")
    ensures v.Obj? && "toString" !in v.fields ==> r == Success("[object Object]")
  {
    if PrimitiveThrows(v) then Failure(TypeError) else Success(PrimitiveText(v))
  }

  /** `Number(s)` for decimal integer numerals, with `None` for NaN:
      surrounding white space is ignored, blank text is 0, and one `+` or
      `-` may lead the digits. */
  function StringToNumber(s: string): Option<int> {
    var t := Trim(s);
    if t == "" then Some(0)
    else if AllDigits(t) then Some(DigitsValue(t) as int)
    else if |t| >= 2 && t[0] == '+' && AllDigits(t[1..]) then Some(DigitsValue(t[1..]) as int)
    else if |t| >= 2 && t[0] == '-' && AllDigits(t[1..]) then Some(0 - DigitsValue(t[1..]) as int)
    else None
  }

  /** `Number(v)` as the relational operators apply it, with `None` for NaN.
      Where `PrimitiveThrows(v)` the conversion throws instead; the
      comparisons check that first. */
  function ToNumber(v: Value): (r: Option<int>)
    ensures v.Undefined? ==> r.None?
    ensures v.Num? ==> r == Some(v.n)
  {
    match v
    case Undefined => None
    case Null => Some(0)
    case Bool(b) => Some(if b then 1 else 0)
    case Num(n) => Some(n)
    case Str(s) => StringToNumber(s)
    case Arr(_) => StringToNumber(PrimitiveText(v))
    case Obj(_) => None
  }

  /** Leading white space is skipped up to the first other character. */
  lemma {:induction false} TrimStartSkips(ws: string, t: string)
    requires forall i :: 0 <= i < |ws| ==> IsJsWhiteSpace(ws[i])
    requires |t| > 0 && !IsJsWhiteSpace(t[0])
    ensures TrimStart(ws + t) == t
    decreases |ws|
  {
    if |ws| > 0 {
      assert (ws + t)[1..] == ws[1..] + t;
      TrimStartSkips(ws[1..], t);
    }
  }

  /** Trailing white space is dropped back to the last other character. */
  lemma {:induction false} TrimEndSkips(t: string, ws: string)
    requires forall i :: 0 <= i < |ws| ==> IsJsWhiteSpace(ws[i])
    requires |t| > 0 && !IsJsWhiteSpace(t[|t| - 1])
    ensures TrimEnd(t + ws) == t
    decreases |ws|
  {
    if |ws| == 0 {
      assert t + ws == t;
    } else {
      assert (t + ws)[..|t + ws| - 1] == t + ws[..|ws| - 1];
      TrimEndSkips(t, ws[..|ws| - 1]);
    }
  }

  /** A numeral with white space around it reads as its digits' value, as
      `Number(" 1700000000\n")` does. */
  lemma PaddedNumeral(before: string, digits: string, after: string)
    requires forall i :: 0 <= i < |before| ==> IsJsWhiteSpace(before[i])
    requires forall i :: 0 <= i < |after| ==> IsJsWhiteSpace(after[i])
    requires |digits| > 0 && AllDigits(digits)
    ensures ToNumber(Str(before + digits + after)) == Some(DigitsValue(digits) as int)
  {
    TrimAround(before, digits, after);
  }

  /** Trimming removes exactly the white space around text that neither
      starts nor ends with white space. */
  lemma TrimAround(before: string, t: string, after: string)
    requires forall i :: 0 <= i < |before| ==> IsJsWhiteSpace(before[i])
    requires forall i :: 0 <= i < |after| ==> IsJsWhiteSpace(after[i])
    requires |t| > 0 && !IsJsWhiteSpace(t[0]) && !IsJsWhiteSpace(t[|t| - 1])
    ensures Trim(before + t + after) == t
  {
    assert before + t + after == before + (t + after);
    TrimStartSkips(before, t + after);
    TrimEndSkips(t, after);
  }

  /** Blank text is the number 0, not NaN. */
  lemma BlankIsZero(ws: string)
    requires forall i :: 0 <= i < |ws| ==> IsJsWhiteSpace(ws[i])
    ensures ToNumber(Str(ws)) == Some(0)
  {
    assert TrimStart(ws) == "";
  }
}

=== FILE: jwt.dfy ===
/** Decoding of the payload of a compact token (`decodeJWT`): the second
    dot-separated segment is read as base64url (section 5 of RFC 4648) and
    turned back into standard base64 before the platform decodes it. No
    signature is checked. */
module Jwt {
  import opened Wrappers
  import opened Strings
  import opened JsValues
  import opened Foreign

  const IllegalBase64Url: string := "Illegal base64url string!"

  /** `token.split('.')[1]`; `None` where that index is `undefined`, so the
      following `.replace` throws. */
  function PayloadSegment(token: string): (seg: Option<string>)
    ensures seg.Some? <==> '.' in token
    ensures seg.Some? ==> '.' !in seg.value
  {
    var parts := Split(token, '.');
    if |parts| >= 2 then Some(parts[1]) else None
  }

  /** The segment after the first dot of `header.payload.rest` is the payload,
      whatever follows it. */
  lemma PayloadOfCompact(header: string, payload: string, rest: string)
    requires '.' !in header && '.' !in payload
    ensures PayloadSegment(header + "." + payload + "." + rest) == Some(payload)
  {
    var tail := payload + ['.'] + rest;
    SplitAfterPiece(payload, rest, '.');
    SplitAfterPiece(header, tail, '.');
    ConcatAssoc(header + ['.'], payload + ['.'], rest);
    ConcatAssoc(header + ['.'], payload, ['.']);
    var parts := Split(header + ['.'] + tail, '.');
    assert parts == [header] + ([payload] + Split(rest, '.'));
    assert |parts| >= 2 && parts[1] == payload;
  }

  /** Back from the URL-safe alphabet: `-` to `+`, then `_` to `/`. */
  function ToStandardAlphabet(seg: string): (r: string)
    ensures |r| == |seg|
    ensures '-' !in r && '_' !in r
    ensures forall i :: 0 <= i < |seg| ==>
              (seg[i] == '-' ==> r[i] == '+') && (seg[i] == '_' ==> r[i] == '/')
    ensures forall i :: 0 <= i < |seg| && seg[i] != '-' && seg[i] != '_' ==> r[i] == seg[i]
    ensures Utf16Length(r) == Utf16Length(seg)
  {
    var r := ReplaceAll(ReplaceAll(seg, '-', '+'), '_', '/');
    Utf16LengthPointwise(seg, r);
    r
  }

  /** Into the URL-safe alphabet, as a base64url encoder writes it. */
  function ToUrlAlphabet(s: string): (r: string)
    ensures |r| == |s|
    ensures '+' !in r && '/' !in r
    ensures forall i :: 0 <= i < |s| && s[i] != '+' && s[i] != '/' ==> r[i] == s[i]
  {
    ReplaceAll(ReplaceAll(s, '+', '-'), '/', '_')
  }

  /** The two alphabet maps undo each other on the text each one produces. */
  lemma AlphabetRoundTrip(s: string, seg: string)
    requires '-' !in s && '_' !in s
    requires '+' !in seg && '/' !in seg
    ensures ToStandardAlphabet(ToUrlAlphabet(s)) == s
    ensures ToUrlAlphabet(ToStandardAlphabet(seg)) == seg
  {
    var a := ToStandardAlphabet(ToUrlAlphabet(s));
    forall i | 0 <= i < |s| ensures a[i] == s[i] {
      assert s[i] in s;
    }
    var b := ToUrlAlphabet(ToStandardAlphabet(seg));
    forall i | 0 <= i < |seg| ensures b[i] == seg[i] {
      assert seg[i] in seg;
    }
  }

  /** Padding restored from the length, counted as JavaScript's `length`
      counts it, in UTF-16 code units: none, `==` or `=`; a length of one
      more than a multiple of four throws. */
  function RestorePadding(s: string): (r: Result<string, Exception>)
    ensures r.Failure? <==> Utf16Length(s) % 4 == 1
    ensures r.Failure? ==> r.error == ThrownString(IllegalBase64Url)
    ensures r.Success? ==> Utf16Length(r.value) % 4 == 0
    ensures r.Success? ==> Utf16Length(s) <= Utf16Length(r.value) < Utf16Length(s) + 3
    ensures r.Success? ==> |s| <= |r.value| && r.value[..|s|] == s
    ensures r.Success? ==> forall i :: |s| <= i < |r.value| ==> r.value[i] == '='
  {
    var n := Utf16Length(s) % 4;
    if n == 1 then Failure(ThrownString(IllegalBase64Url))
    else if n == 0 then Success(s)
    else
      var pad := if n == 2 then "==" else "=";
      PaddedLength(s, pad);
      Success(s + pad)
  }

  /** Appending padding adds one code unit per `=` and keeps the text before it. */
  lemma PaddedLength(s: string, pad: string)
    requires pad == "=" || pad == "=="
    ensures Utf16Length(s + pad) == Utf16Length(s) + |pad|
    ensures (s + pad)[..|s|] == s
    ensures forall i :: |s| <= i < |s + pad| ==> (s + pad)[i] == '='
  {
    assert forall i :: 0 <= i < |pad| ==> pad[i] == '=';
    Utf16LengthAppend(s, pad);
    Utf16LengthOfBmp(pad);
    assert forall i :: |s| <= i < |s + pad| ==> (s + pad)[i] == pad[i - |s|];
  }

  /** The standard base64 text handed to `atob` for a payload segment. */
  function StandardBase64(seg: string): Result<string, Exception> {
    RestorePadding(ToStandardAlphabet(seg))
  }

  /** `decodeJWT(token)`: the payload's text, or what it throws. When the
      decoded bytes are not UTF-8 the raw byte string is returned instead. */
  function DecodeJwt(token: Value, prims: Primitives): (r: Result<string, Exception>)
    ensures r == Failure(TypeError) <==> !token.Str? || '.' !in token.s
    ensures r == Failure(ThrownString(IllegalBase64Url)) <==>
              token.Str? && '.' in token.s && Utf16Length(PayloadSegment(token.s).value) % 4 == 1
    ensures token.Str? && '.' in token.s && StandardBase64(PayloadSegment(token.s).value).Success? ==>
              var b := StandardBase64(PayloadSegment(token.s).value).value;
              && (prims.atob(b).None? <==> r == Failure(InvalidCharacterError))
              && (prims.atob(b).Some? ==>
                    r == Success(prims.utf8Decode(prims.atob(b).value).GetOr(prims.atob(b).value)))
    ensures r.Success? ==>
              token.Str? && '.' in token.s &&
              var b := StandardBase64(PayloadSegment(token.s).value);
              b.Success? && prims.atob(b.value).Some? &&
              var bin := prims.atob(b.value).value;
              r.value == prims.utf8Decode(bin).GetOr(bin)
  {
    if !token.Str? then Failure(TypeError)
    else match PayloadSegment(token.s)
      case None => Failure(TypeError)
      case Some(seg) =>
        match StandardBase64(seg)
        case Failure(e) => Failure(e)
        case Success(b) =>
          match prims.atob(b)
          case None => Failure(InvalidCharacterError)
          case Some(bin) => Success(prims.utf8Decode(bin).GetOr(bin))
  }

  /** A character of the standard base64 alphabet. */
  predicate Base64Digit(c: char) {
    ('A' <= c <= 'Z') || ('a' <= c <= 'z') || ('0' <= c <= '9') || c == '+' || c == '/'
  }

  /** Up to two trailing `=` removed. */
  function StripPadding(b: string): string {
    if EndsWith(b, "==") then b[..|b| - 2]
    else if EndsWith(b, "=") then b[..|b| - 1]
    else b
  }

  /** Standard base64 text as an encoder emits it: whole quads, alphabet
      characters, then at most two `=`. */
  predicate IsBase64Text(b: string) {
    |b| % 4 == 0 && forall i :: 0 <= i < |StripPadding(b)| ==> Base64Digit(StripPadding(b)[i])
  }

  /** A base64url encoder's output for `b`: padding dropped, URL-safe alphabet. */
  function EncodeSegment(b: string): string {
    ToUrlAlphabet(StripPadding(b))
  }

  /** The alphabet characters of base64 text hold neither URL-safe
      characters, dots nor anything outside the Basic Multilingual Plane. */
  lemma Base64CoreIsPlain(b: string)
    requires IsBase64Text(b)
    ensures var core := StripPadding(b);
      '-' !in core && '_' !in core && '.' !in core && Utf16Length(core) == |core|
  {
    var core := StripPadding(b);
    forall i | 0 <= i < |core| ensures core[i] !in "-_." && core[i] as int < 0x1_0000 {
      assert Base64Digit(core[i]);
    }
    Utf16LengthOfBmp(core);
  }

  /** Restoring the padding of base64 text with its padding stripped gives
      the text back. */
  lemma Repad(b: string)
    requires IsBase64Text(b)
    ensures RestorePadding(StripPadding(b)) == Success(b)
  {
    var core := StripPadding(b);
    Base64CoreIsPlain(b);
    if EndsWith(b, "==") {
      assert b == core + "==";
    } else if EndsWith(b, "=") {
      assert b == core + "=";
    }
  }

  /** The URL-safe encoding of base64 text holds no dot. */
  lemma EncodingHasNoDot(b: string)
    requires IsBase64Text(b)
    ensures '.' !in EncodeSegment(b)
  {
    var core := StripPadding(b);
    Base64CoreIsPlain(b);
    var seg := EncodeSegment(b);
    forall i | 0 <= i < |seg| ensures seg[i] != '.' {
      assert core[i] in core;
    }
  }

  /** The decoder restores exactly the standard base64 text an encoder
      started from, and the encoder never writes a dot. */
  lemma RestoreEncodedSegment(b: string)
    requires IsBase64Text(b)
    ensures '.' !in EncodeSegment(b)
    ensures StandardBase64(EncodeSegment(b)) == Success(b)
  {
    Base64CoreIsPlain(b);
    EncodingHasNoDot(b);
    AlphabetRoundTrip(StripPadding(b), "");
    Repad(b);
  }

  /** Decoding a token whose payload segment an encoder produced from `b`
      hands `b` itself to `atob`, and returns what `atob` and the UTF-8
      repair make of it. */
  lemma DecodeEncodedPayload(header: string, b: string, rest: string, prims: Primitives)
    requires '.' !in header
    requires IsBase64Text(b)
    ensures DecodeJwt(Str(header + "." + EncodeSegment(b) + "." + rest), prims) ==
              match prims.atob(b)
              case None => Failure(InvalidCharacterError)
              case Some(bin) => Success(prims.utf8Decode(bin).GetOr(bin))
  {
    PayloadOfCompact(header, EncodeSegment(b), rest);
    RestoreEncodedSegment(b);
  }

  /** Length of the unpadded base64url encoding of `n` bytes. */
  function UnpaddedLength(n: nat): nat {
    4 * (n / 3) + (if n % 3 == 0 then 0 else n % 3 + 1)
  }

  /** Division by a positive constant is determined by quotient and remainder. */
  lemma DivideBy(a: int, d: int, q: int, m: int)
    requires d == 3 || d == 4
    requires a == d * q + m && 0 <= m < d
    ensures a / d == q && a % d == m
  {
  }

  /** The unpadded length is never one more than a multiple of four, and
      rounding it up to a multiple of four gives the padded length. */
  lemma UnpaddedLengthRoundsUp(n: nat)
    ensures UnpaddedLength(n) % 4 != 1
    ensures forall l :: l % 4 == 0 && UnpaddedLength(n) <= l < UnpaddedLength(n) + 3 ==> l == 4 * ((n + 2) / 3)
  {
    var q, m := n / 3, n % 3;
    var u := UnpaddedLength(n);
    if m == 0 {
      DivideBy(n + 2, 3, q, 2);
      DivideBy(u, 4, q, 0);
    } else {
      DivideBy(n + 2, 3, q + 1, m - 1);
      DivideBy(u, 4, q, m + 1);
    }
    forall l | l % 4 == 0 && u <= l < u + 3 ensures l == 4 * ((n + 2) / 3) {
      DivideBy(l, 4, l / 4, 0);
    }
  }

  /** An unpadded encoding of any number of bytes is accepted, and padding
      brings it to the standard length of four characters per three bytes,
      rounded up. */
  lemma EncodedLengthAccepted(s: string, n: nat)
    requires Utf16Length(s) == UnpaddedLength(n)
    ensures RestorePadding(s).Success?
    ensures Utf16Length(RestorePadding(s).value) == 4 * ((n + 2) / 3)
  {
    UnpaddedLengthRoundsUp(n);
  }

  /** A payload segment holding one character outside the Basic
      Multilingual Plane is two code units long, so it is padded rather
      than refused, and the failure is left to `atob`. */
  lemma AstralCharacterPadded()
    ensures RestorePadding("\U{1F600}") == Success("\U{1F600}==")
  {
    var s := "\U{1F600}";
    assert Utf16Length(s) == 2 by { assert s[..0] == ""; }
    assert s + "==" == "\U{1F600}==";
  }
}

=== FILE: scenarios.dfy ===
/** How the handlers compose across requests: login then `verify`, logout
    then `verify`, `authorize` then the provider's callback, and the
    callback that must not log anyone in. The behaviour of the foreign
    primitives a scenario relies on (a JSON round trip, the cookie parser
    reading back the cookie it was sent) is stated as a precondition. */
module Scenarios {
  import opened Wrappers
  import opened Strings
  import opened JsValues
  import opened Settings
  import opened Foreign
  import opened Claims
  import opened Urls
  import opened Cookies
  import opened Session

  /** The `Cookie` header a browser sends back for a session id. */
  function CookieHeaderFor(id: string): string {
    CookieKey + "=" + id
  }

  /** A header that starts with the cookie's name mentions it. */
  lemma HeaderMentionsCookie(id: string)
    ensures Contains(CookieHeaderFor(id), CookieKey)
  {
    assert CookieHeaderFor(id)[..|CookieKey|] == CookieKey;
  }

  /** The request that returns the session cookie reaches the session the
      login stored, as long as the cookie parser reads the header back. */
  lemma ReturningCookieNamesSession(req: Request, id: string, prims: Primitives)
    requires id != ""
    requires req.cookieHeader == Some(CookieHeaderFor(id))
    requires prims.parseCookies(CookieHeaderFor(id)) == map[CookieKey := id]
    ensures CookieSession(req, prims) == Some(id)
  {
    HeaderMentionsCookie(id);
  }

  /** A successful login followed by a request carrying the session cookie:
      `verify` returns the stored tokens and the identity claims, and
      `authorize` grants access exactly when there is an access token. */
  lemma LoginThenVerify(
    build: Build, tokenBody: Value, redirectPath: Value, store: Store, cfg: Config, prims: Primitives,
    nowMs: int, req: Request, state: string)
    requires !Nullish(tokenBody)
    requires var claims := DecodeClaims(Field(tokenBody, "id_token"), prims);
      claims.Success? && TokenAccepted(build, claims.value, cfg, nowMs) && !PrimitiveThrows(Field(claims.value, "sub"))
    requires var id := SessionId(cfg, DecodeClaims(Field(tokenBody, "id_token"), prims).value, prims).value;
      && id != ""
      && req.cookieHeader == Some(CookieHeaderFor(id))
      && prims.parseCookies(CookieHeaderFor(id)) == map[CookieKey := id]
    requires prims.stringify(tokenBody) != ""
    requires prims.parseJson(prims.stringify(tokenBody)) == Some(tokenBody)
    ensures var after := PersistAuth(build, tokenBody, redirectPath, store, cfg, prims, nowMs);
      var claims := DecodeClaims(Field(tokenBody, "id_token"), prims).value;
      && after.result.Success? && after.result.value.Found?
      && Verify(req, after.store, prims) ==
           Success(SessionInfo(Field(tokenBody, "access_token"), Field(tokenBody, "id_token"), claims))
      && (Authorize(req, after.store, cfg, prims, state).result.Success? &&
          Authorize(req, after.store, cfg, prims, state).result.value.Granted?
          <==> Truthy(Field(tokenBody, "access_token")))
      && (!Truthy(Field(tokenBody, "access_token")) ==>
            Authorize(req, after.store, cfg, prims, state) ==
              Outcome(Success(LoginRequired(AuthorizeUrl(cfg, state, prims))),
                      GenerateStateParam(state, req, after.store, prims)))
  {
    var claims := DecodeClaims(Field(tokenBody, "id_token"), prims).value;
    var id := SessionId(cfg, claims, prims).value;
    ReturningCookieNamesSession(req, id, prims);
  }

  /** After `logout`, the same cookie no longer reaches a session: `verify`
      and `authorize` both fail with the missing-data error. */
  lemma LogoutThenVerify(req: Request, store: Store, cfg: Config, prims: Primitives, state: string)
    requires CookieSession(req, prims).Some?
    ensures var after := Logout(req, store, prims).1;
      && Verify(req, after, prims) == Failure(ErrorWithMessage(NotFoundMessage))
      && Authorize(req, after, cfg, prims, state) == Outcome(Failure(ErrorWithMessage(NotFoundMessage)), after)
  {
  }

  /** The path the provider redirects back to, where the worker calls
      `handleRedirect`. */
  const CallbackPath: string := "/auth"

  /** A callback request naming the given state and, optionally, a code. */
  function Callback(path: string, state: string, code: Option<string>): Request {
    Request(path,
            if code.Some? then map["state" := state, "code" := code.value] else map["state" := state],
            None)
  }

  /** An anonymous visit to `path` followed by the provider's callback with
      the state it was handed: without a code the callback answers `{}` and
      writes nothing; with a code it exchanges the code and will redirect
      back to `path`. */
  lemma AuthorizeThenCallback(
    build: Build, req: Request, store: Store, cfg: Config, prims: Primitives, state: string, code: Option<string>,
    endpoint: TokenRequest -> Result<Value, Exception>, nowMs: int)
    requires CookieSession(req, prims).None?
    requires state != "" && (code.Some? ==> code.value != "")
    requires prims.stringify(StateRecord(req.path)) != ""
    requires prims.parseJson(prims.stringify(StateRecord(req.path))) == Some(StateRecord(req.path))
    ensures var first := Authorize(req, store, cfg, prims, state);
      var second := HandleRedirect(build, Callback(CallbackPath, state, code), first.store, cfg, prims, endpoint, nowMs);
      && first.result == Success(LoginRequired(AuthorizeUrl(cfg, state, prims)))
      && (code.None? ==> second == Outcome(Success(EmptyResponse), first.store))
      && (code.Some? ==>
            second == ExchangeCodeAndRedirect(build, code.value, Str(req.path), first.store, cfg, prims, endpoint, nowMs))
  {
    var first := Authorize(req, store, cfg, prims, state);
    assert StateKey(state) in first.store;
    assert Param(Callback(CallbackPath, state, code), "state") == Some(state);
    assert Param(Callback(CallbackPath, state, code), "code") == code;
  }

  /** The whole login: an anonymous visit to `path`, then the callback with
      the state and a code the provider accepts with a valid identity token.
      The answer is a 302 back to `path` with the session cookie, and the
      reply is stored under the subject's session key. */
  lemma AuthorizeThenLogin(
    build: Build, req: Request, store: Store, cfg: Config, prims: Primitives, state: string, code: string,
    tokenBody: Value, endpoint: TokenRequest -> Result<Value, Exception>, nowMs: int)
    requires CookieSession(req, prims).None?
    requires state != "" && code != ""
    requires prims.stringify(StateRecord(req.path)) != ""
    requires prims.parseJson(prims.stringify(StateRecord(req.path))) == Some(StateRecord(req.path))
    requires endpoint(TokenRequestFor(cfg, code)) == Success(tokenBody)
    requires !Nullish(tokenBody) && !Truthy(Field(tokenBody, "error"))
    requires var claims := DecodeClaims(Field(tokenBody, "id_token"), prims);
      claims.Success? && TokenAccepted(build, claims.value, cfg, nowMs) && !PrimitiveThrows(Field(claims.value, "sub"))
    ensures var first := Authorize(req, store, cfg, prims, state);
      var second := HandleRedirect(build, Callback(CallbackPath, state, Some(code)), first.store, cfg, prims, endpoint, nowMs);
      var id := SessionId(cfg, DecodeClaims(Field(tokenBody, "id_token"), prims).value, prims).value;
      && second.result == Success(Found(Str(req.path), SessionCookie(id, prims.utcString(nowMs + DayMs))))
      && second.store == first.store[id := prims.stringify(tokenBody)]
  {
    AuthorizeThenCallback(build, req, store, cfg, prims, state, Some(code), endpoint, nowMs);
  }

  /** An identity token issued for another client is answered with 401 and
      nothing is stored, whatever the rest of its claims say, in either
      build. */
  lemma WrongAudienceUnauthorized(
    build: Build, tokenBody: Value, redirectPath: Value, store: Store, cfg: Config, prims: Primitives, nowMs: int)
    requires !Nullish(tokenBody)
    requires var claims := DecodeClaims(Field(tokenBody, "id_token"), prims);
      claims.Success? && Field(claims.value, "aud") != Str(cfg.clientId)
    ensures PersistAuth(build, tokenBody, redirectPath, store, cfg, prims, nowMs) == Outcome(Success(Unauthorized), store)
  {
    AudienceMustMatch(DecodeClaims(Field(tokenBody, "id_token"), prims).value, cfg, nowMs);
  }

  /** A provider reply carrying an error throws before anything is stored.
      As written the thrown message is empty; corrected it is the
      provider's reason. */
  lemma ProviderErrorBeforeWrite(
    build: Build, code: string, redirectPath: Value, store: Store, cfg: Config, prims: Primitives,
    endpoint: TokenRequest -> Result<Value, Exception>, nowMs: int, reason: string)
    requires reason != ""
    requires endpoint(TokenRequestFor(cfg, code)) == Success(Obj(map["error" := Str(reason)]))
    ensures ExchangeCodeAndRedirect(build, code, redirectPath, store, cfg, prims, endpoint, nowMs) ==
      Outcome(Failure(ErrorWithMessage(if build.AsWritten? then "" else reason)), store)
  {
    var reply := Obj(map["error" := Str(reason)]);
    assert Field(reply, "error") == Str(reason);
  }

  /** As written, a provider reply whose identity token carries issuer and
      audience but neither `exp` nor `iat` logs the subject in: the reply is
      stored and the browser redirected. Corrected, it is answered with 401
      and nothing is stored. */
  lemma MissingTimesStoredAsWritten(
    tokenBody: Value, redirectPath: Value, store: Store, cfg: Config, prims: Primitives, nowMs: int)
    requires !Nullish(tokenBody)
    requires !EndsWith(cfg.domain, "/")
    requires DecodeClaims(Field(tokenBody, "id_token"), prims) ==
      Success(Obj(map["iss" := Str(cfg.domain), "aud" := Str(cfg.clientId)]))
    ensures var claims := Obj(map["iss" := Str(cfg.domain), "aud" := Str(cfg.clientId)]);
      var written := PersistAuth(AsWritten, tokenBody, redirectPath, store, cfg, prims, nowMs);
      && written.store == store[SessionId(cfg, claims, prims).value := prims.stringify(tokenBody)]
      && written.result.Success? && written.result.value.Found?
      && PersistAuth(Corrected, tokenBody, redirectPath, store, cfg, prims, nowMs) ==
           Outcome(Success(Unauthorized), store)
  {
    var claims := Obj(map["iss" := Str(cfg.domain), "aud" := Str(cfg.clientId)]);
    MissingTimesAcceptedAsWritten(cfg, nowMs);
    assert TokenAccepted(AsWritten, claims, cfg, nowMs) && !TokenAccepted(Corrected, claims, cfg, nowMs);
    assert Field(claims, "sub") == Undefined && !PrimitiveThrows(Field(claims, "sub"));
  }

  /** An identity token that passes validation but whose subject is an
      object with its own `toString` key makes building the session key
      throw, before anything is stored, in either build. */
  lemma UnconvertibleSubjectThrows(
    build: Build, tokenBody: Value, redirectPath: Value, store: Store, cfg: Config, prims: Primitives, nowMs: int)
    requires !Nullish(tokenBody)
    requires var claims := DecodeClaims(Field(tokenBody, "id_token"), prims);
      && claims.Success? && TokenAccepted(build, claims.value, cfg, nowMs)
      && Field(claims.value, "sub") == Obj(map["toString" := Num(1)])
    ensures PersistAuth(build, tokenBody, redirectPath, store, cfg, prims, nowMs) == Outcome(Failure(TypeError), store)
  {
    var claims := DecodeClaims(Field(tokenBody, "id_token"), prims).value;
    assert PrimitiveThrows(Field(claims, "sub"));
  }
}

=== FILE: session.dfy ===
/** The request handlers of the authentication core as pure functions over
    the key-value store: `verify`, `authorize` (with `generateStateParam`),
    `logout`, and the callback leg `handleRedirect` ->
    `exchangeCodeAndRedirect` -> `persistAuth`. Each handler returns what
    it answers (or throws) together with the store it leaves behind. */
module Session {
  import opened Wrappers
  import opened Strings
  import opened JsValues
  import opened Settings
  import opened Foreign
  import opened Jwt
  import opened Claims
  import opened Urls
  import opened Cookies

  /** The key-value store: key to JSON text. Expiry is not modelled. */
  type Store = map<string, string>

  /** What the core reads of a request: its path, the first value of each
      query parameter, and the `Cookie` header if any. */
  datatype Request = Request(path: string, query: map<string, string>, cookieHeader: Option<string>)

  /** A handler's answer, or what it threw, with the store afterwards. */
  datatype Outcome<T> = Outcome(result: Result<T, Exception>, store: Store)

  /** `verify`'s answer: `{}` without a session, else the stored tokens and
      the decoded identity claims. */
  datatype Authorization =
    | Anonymous
    | SessionInfo(accessToken: Value, idToken: Value, userInfo: Value)

  /** `authorize`'s answer: `[true, {authorization, logoutUrl}]` or
      `[false, {redirectUrl}]`. */
  datatype Decision =
    | Granted(authorization: Authorization, logoutUrl: string)
    | LoginRequired(redirectUrl: string)

  /** `handleRedirect`'s answer: `null`, `{}`, `{status: 401}`, or a 302 with
      `Location` and `Set-cookie` headers. */
  datatype CallbackResponse =
    | NoAction
    | EmptyResponse
    | Unauthorized
    | Found(location: Value, setCookie: string)

  /** `logout`'s answer: `{}` or `{headers: {'Set-cookie': ...}}`. */
  datatype LogoutResponse = NoHeaders | ClearCookie(setCookie: string)

  /** The body posted to the provider's token endpoint. */
  datatype TokenRequest = TokenRequest(
    grantType: string, clientId: string, clientSecret: string, code: string, redirectUri: string)

  /** Which program the callback handlers follow: the source as written, or
      the source with its two defects corrected (the provider's error
      message, and tokens without numeric `exp` and `iat`). */
  datatype Build = AsWritten | Corrected

  const NotFoundMessage: string := "Unable to find authorization data"
  const UnparsableMessage: string := "Unable to parse auth information from Workers KV"

  /** The session key the request's cookie names, when it is truthy. */
  function CookieSession(req: Request, prims: Primitives): (sub: Option<string>)
    ensures sub.Some? ==> sub.value != "" && AuthCookieValue(req.cookieHeader, prims) == sub
    ensures sub.None? ==> AuthCookieValue(req.cookieHeader, prims) in {None, Some("")}
  {
    var v := AuthCookieValue(req.cookieHeader, prims);
    if v.Some? && v.value != "" then v else None
  }

  /** `JSON.parse(decodeJWT(idToken))`. */
  function DecodeClaims(idToken: Value, prims: Primitives): (r: Result<Value, Exception>)
    ensures DecodeJwt(idToken, prims).Failure? ==> r == Failure(DecodeJwt(idToken, prims).error)
    ensures r.Success? <==> DecodeJwt(idToken, prims).Success? && prims.parseJson(DecodeJwt(idToken, prims).value).Some?
    ensures DecodeJwt(idToken, prims).Success? && prims.parseJson(DecodeJwt(idToken, prims).value).None? ==>
      r == Failure(SyntaxError)
    ensures r.Success? ==> r.value == prims.parseJson(DecodeJwt(idToken, prims).value).value
  {
    match DecodeJwt(idToken, prims)
    case Failure(e) => Failure(e)
    case Success(text) =>
      match prims.parseJson(text)
      case None => Failure(SyntaxError)
      case Some(claims) => Success(claims)
  }

  /** `verify`: the session the cookie points at. A cookie whose record is
      missing or unparsable is a hard error, not an anonymous request. */
  function Verify(req: Request, store: Store, prims: Primitives): (r: Result<Authorization, Exception>)
    ensures CookieSession(req, prims).None? <==> r == Success(Anonymous)
    ensures var sub := CookieSession(req, prims);
      sub.Some? && (sub.value !in store || store[sub.value] == "") ==>
        r == Failure(ErrorWithMessage(NotFoundMessage))
    ensures var sub := CookieSession(req, prims);
      sub.Some? && sub.value in store && store[sub.value] != "" && prims.parseJson(store[sub.value]).None? ==>
        r == Failure(ErrorWithMessage(UnparsableMessage))
    ensures var sub := CookieSession(req, prims);
      sub.Some? && sub.value in store && store[sub.value] != "" && prims.parseJson(store[sub.value]).Some? ==>
        var rec := prims.parseJson(store[sub.value]).value;
        && (Nullish(rec) ==> r == Failure(TypeError))
        && (!Nullish(rec) ==>
              var claims := DecodeClaims(Field(rec, "id_token"), prims);
              && (claims.Failure? ==> r == Failure(claims.error))
              && (claims.Success? ==>
                    r == Success(SessionInfo(Field(rec, "access_token"), Field(rec, "id_token"), claims.value))))
    ensures r.Success? && r.value.SessionInfo? ==>
      var sub := CookieSession(req, prims);
      && sub.Some? && sub.value in store
      && var rec := prims.parseJson(store[sub.value]);
      && rec.Some? && !Nullish(rec.value)
      && r.value.accessToken == Field(rec.value, "access_token")
      && r.value.idToken == Field(rec.value, "id_token")
      && DecodeClaims(r.value.idToken, prims) == Success(r.value.userInfo)
  {
    match CookieSession(req, prims)
    case None => Success(Anonymous)
    case Some(sub) =>
      if sub !in store || store[sub] == "" then Failure(ErrorWithMessage(NotFoundMessage))
      else
        match prims.parseJson(store[sub])
        case None => Failure(ErrorWithMessage(UnparsableMessage))
        case Some(rec) =>
          // destructuring `null` throws
          if Nullish(rec) then Failure(TypeError)
          else
            var idToken := Field(rec, "id_token");
            match DecodeClaims(idToken, prims)
            case Failure(e) => Failure(e)
            case Success(info) => Success(SessionInfo(Field(rec, "access_token"), idToken, info))
  }

  /** The record kept for a pending authorization. */
  function StateRecord(path: string): Value {
    Obj(map["originalPath" := Str(path)])
  }

  /** `generateStateParam`'s store write for the random token `state`. */
  function GenerateStateParam(state: string, req: Request, store: Store, prims: Primitives): (s: Store)
    ensures s.Keys == store.Keys + {StateKey(state)}
    ensures s[StateKey(state)] == prims.stringify(StateRecord(req.path))
    ensures forall k :: k in store && k != StateKey(state) ==> s[k] == store[k]
  {
    store[StateKey(state) := prims.stringify(StateRecord(req.path))]
  }

  /** `authorization.accessToken`; `{}` has none. */
  function AccessToken(a: Authorization): Value {
    if a.SessionInfo? then a.accessToken else Undefined
  }

  /** `authorize`, with `state` the token the random source returned. */
  function Authorize(req: Request, store: Store, cfg: Config, prims: Primitives, state: string): (r: Outcome<Decision>)
    ensures Verify(req, store, prims).Failure? ==>
      r == Outcome(Failure(Verify(req, store, prims).error), store)
    ensures r.result.Success? && r.result.value.Granted? <==>
      Verify(req, store, prims).Success? && Truthy(AccessToken(Verify(req, store, prims).value))
    ensures r.result.Success? && r.result.value.Granted? ==>
      r.store == store && r.result.value == Granted(Verify(req, store, prims).value, LogoutUrl(cfg))
    ensures r.result.Success? && r.result.value.LoginRequired? ==>
      && r.store == GenerateStateParam(state, req, store, prims)
      && r.result.value.redirectUrl == AuthorizeUrl(cfg, state, prims)
    ensures Verify(req, store, prims).Success? && !Truthy(AccessToken(Verify(req, store, prims).value)) ==>
      r == Outcome(Success(LoginRequired(AuthorizeUrl(cfg, state, prims))), GenerateStateParam(state, req, store, prims))
    ensures CookieSession(req, prims).None? ==>
      && r.result == Success(LoginRequired(AuthorizeUrl(cfg, state, prims)))
      && r.store == store[StateKey(state) := prims.stringify(StateRecord(req.path))]
  {
    match Verify(req, store, prims)
    case Failure(e) => Outcome(Failure(e), store)
    case Success(authorization) =>
      if Truthy(AccessToken(authorization)) then
        Outcome(Success(Granted(authorization, LogoutUrl(cfg))), store)
      else
        Outcome(Success(LoginRequired(AuthorizeUrl(cfg, state, prims))), GenerateStateParam(state, req, store, prims))
  }

  /** `logout`: with a session cookie, that one key is deleted and the cookie
      cleared; without one, nothing happens. */
  function Logout(req: Request, store: Store, prims: Primitives): (r: (LogoutResponse, Store))
    ensures CookieSession(req, prims).None? ==> r == (NoHeaders, store)
    ensures CookieSession(req, prims).Some? ==>
      var sub := CookieSession(req, prims).value;
      && r.0 == ClearCookie(ClearingCookie())
      && r.1.Keys == store.Keys - {sub}
      && forall k :: k in r.1 ==> r.1[k] == store[k]
  {
    match CookieSession(req, prims)
    case None => (NoHeaders, store)
    case Some(sub) => (ClearCookie(ClearingCookie()), store - {sub})
  }

  /** `url.searchParams.get(name)` when it is truthy. */
  function Param(req: Request, name: string): Option<string> {
    if name in req.query && req.query[name] != "" then Some(req.query[name]) else None
  }

  /** The token request for an authorization code. */
  function TokenRequestFor(cfg: Config, code: string): TokenRequest {
    TokenRequest("authorization_code", cfg.clientId, cfg.clientSecret, code, cfg.callbackUrl)
  }

  /** The token request as the JSON object that is serialised into the
      request body. */
  function TokenRequestJson(t: TokenRequest): Value {
    Obj(map["grant_type" := Str(t.grantType), "client_id" := Str(t.clientId),
            "client_secret" := Str(t.clientSecret), "code" := Str(t.code),
            "redirect_uri" := Str(t.redirectUri)])
  }

  /** The text the salt and subject are digested from: the salt, a dash,
      then `String(claims.sub)`. */
  function DigestInput(cfg: Config, claims: Value): (text: Result<string, Exception>)
    ensures text.Failure? <==> PrimitiveThrows(Field(claims, "sub"))
    ensures text.Failure? ==> text.error == TypeError
    ensures text.Success? ==>
      var t := text.value;
      && |t| == |cfg.salt| + 1 + |ToJsString(Field(claims, "sub")).value|
      && t[..|cfg.salt|] == cfg.salt && t[|cfg.salt|] == '-'
      && t[|cfg.salt| + 1..] == ToJsString(Field(claims, "sub")).value
  {
    match ToJsString(Field(claims, "sub"))
    case Failure(e) => Failure(e)
    case Success(sub) => Success(cfg.salt + "-" + sub)
  }

  /** Two claims share a digest input exactly when their subjects read the
      same as text, so one subject always gets one session key. */
  lemma DigestInputPerSubject(cfg: Config, a: Value, b: Value)
    ensures DigestInput(cfg, a) == DigestInput(cfg, b) <==>
      ToJsString(Field(a, "sub")) == ToJsString(Field(b, "sub"))
  {
    var x, y := DigestInput(cfg, a), DigestInput(cfg, b);
    if x == y && x.Success? {
      assert x.value[|cfg.salt| + 1..] == y.value[|cfg.salt| + 1..];
    }
  }

  /** The key a validated subject's session is stored under: the digest of
      the salt, a dash and `String(claims.sub)`, or the `TypeError` that
      conversion throws. It depends on the claims only through the subject. */
  function SessionId(cfg: Config, claims: Value, prims: Primitives): (id: Result<string, Exception>)
    ensures id.Failure? <==> PrimitiveThrows(Field(claims, "sub"))
    ensures id.Failure? ==> id.error == TypeError
    ensures id.Success? ==>
      forall other :: ToJsString(Field(other, "sub")) == ToJsString(Field(claims, "sub")) ==>
        DigestInput(cfg, other).Success? && prims.digestBase64(DigestInput(cfg, other).value) == id.value
  {
    match DigestInput(cfg, claims)
    case Failure(e) => Failure(e)
    case Success(text) => Success(prims.digestBase64(text))
  }

  /** `validateToken` in the given build. */
  function TokenAccepted(build: Build, claims: Value, cfg: Config, nowMs: int): bool {
    if build.AsWritten? then ValidateTokenAsWritten(claims, cfg, nowMs) else ValidateToken(claims, cfg, nowMs)
  }

  /** `persistAuth`: validate the identity token of the provider's reply
      with the build's `validateToken`; on success store the reply under the
      subject's session key and redirect to the saved path with the session
      cookie. */
  function PersistAuth(
    build: Build, tokenBody: Value, redirectPath: Value, store: Store, cfg: Config, prims: Primitives, nowMs: int)
    : (r: Outcome<CallbackResponse>)
    ensures Nullish(tokenBody) ==> r == Outcome(Failure(TypeError), store)
    ensures !Nullish(tokenBody) ==>
      var claims := DecodeClaims(Field(tokenBody, "id_token"), prims);
      && (claims.Failure? ==> r == Outcome(Failure(claims.error), store))
      && (claims.Success? && !TokenAccepted(build, claims.value, cfg, nowMs) ==>
            r == Outcome(Success(Unauthorized), store))
      && (claims.Success? && TokenAccepted(build, claims.value, cfg, nowMs) &&
          PrimitiveThrows(Field(claims.value, "sub")) ==>
            r == Outcome(Failure(TypeError), store))
      && (claims.Success? && TokenAccepted(build, claims.value, cfg, nowMs) &&
          !PrimitiveThrows(Field(claims.value, "sub")) ==>
            var id := SessionId(cfg, claims.value, prims).value;
            && r.store == store[id := prims.stringify(tokenBody)]
            && r.result == Success(Found(if redirectPath.Undefined? then Str("/") else redirectPath,
                                         SessionCookie(id, prims.utcString(nowMs + DayMs)))))
    ensures r.result.Success? ==> r.result.value.Unauthorized? || r.result.value.Found?
    ensures r.store != store ==> r.result.Success? && r.result.value.Found?
  {
    match Get(tokenBody, "id_token")
    case Failure(e) => Outcome(Failure(e), store)
    case Success(idToken) =>
      match DecodeClaims(idToken, prims)
      case Failure(e) => Outcome(Failure(e), store)
      case Success(decoded) =>
        if !TokenAccepted(build, decoded, cfg, nowMs) then Outcome(Success(Unauthorized), store)
        else
          match SessionId(cfg, decoded, prims)
          case Failure(e) => Outcome(Failure(e), store)
          case Success(id) =>
            var expires := nowMs + DayMs;
            var location := if redirectPath.Undefined? then Str("/") else redirectPath;
            Outcome(Success(Found(location, SessionCookie(id, prims.utcString(expires)))),
                    store[id := prims.stringify(tokenBody)])
  }

  /** `new Error(v)`: the message is empty for `undefined`, else
      `String(v)`; a conversion that throws makes the `TypeError` the
      thrown error. */
  function NewError(v: Value): Exception {
    if v.Undefined? then ErrorWithMessage("")
    else match ToJsString(v)
      case Failure(e) => e
      case Success(text) => ErrorWithMessage(text)
  }

  /** The error thrown for a provider reply with an `error` field, as
      written: `body.error` reads the request's JSON text, a string, which
      has no `error` property, so the message is always empty. */
  function ExchangeFailureAsWritten(requestBody: string, tokenBody: Value): (e: Exception)
    ensures e == ErrorWithMessage("")
  {
    NewError(Field(Str(requestBody), "error"))
  }

  /** The error thrown for a provider reply with an `error` field, carrying
      the provider's reason as evidently intended. */
  function ExchangeFailure(tokenBody: Value): (e: Exception)
    ensures e.ErrorWithMessage? <==> !PrimitiveThrows(Field(tokenBody, "error"))
    ensures !e.ErrorWithMessage? ==> e == TypeError
    ensures Field(tokenBody, "error").Str? ==> e.message == Field(tokenBody, "error").s
  {
    NewError(Field(tokenBody, "error"))
  }

  /** The provider's reason is lost as written and kept when corrected. */
  lemma ProviderReasonLost(requestBody: string)
    ensures var reply := Obj(map["error" := Str("invalid_grant")]);
      && ExchangeFailureAsWritten(requestBody, reply).message == ""
      && ExchangeFailure(reply).message == "invalid_grant"
  {
  }

  /** The error thrown for a provider reply with an `error` field in the
      given build; the request body is the serialised token request. */
  function ProviderFailure(build: Build, requestBody: string, tokenBody: Value): Exception {
    if build.AsWritten? then ExchangeFailureAsWritten(requestBody, tokenBody) else ExchangeFailure(tokenBody)
  }

  /** `exchangeCodeAndRedirect`: trade the code at the token endpoint; a
      reply with a truthy `error` throws before anything is stored. As
      written the thrown message is empty; corrected it is the provider's
      reason. */
  function ExchangeCodeAndRedirect(
    build: Build, code: string, redirectPath: Value, store: Store, cfg: Config, prims: Primitives,
    endpoint: TokenRequest -> Result<Value, Exception>, nowMs: int): (r: Outcome<CallbackResponse>)
    ensures var reply := endpoint(TokenRequestFor(cfg, code));
      && (reply.Failure? ==> r == Outcome(Failure(reply.error), store))
      && (reply.Success? && Nullish(reply.value) ==> r == Outcome(Failure(TypeError), store))
      && (reply.Success? && !Nullish(reply.value) && !Truthy(Field(reply.value, "error")) ==>
            r == PersistAuth(build, reply.value, redirectPath, store, cfg, prims, nowMs))
    ensures var reply := endpoint(TokenRequestFor(cfg, code));
      reply.Success? && Truthy(Field(reply.value, "error")) ==>
        && r.store == store
        && (build.AsWritten? ==> r.result == Failure(ErrorWithMessage("")))
        && (build.Corrected? ==> r.result == Failure(ExchangeFailure(reply.value)))
        && (build.Corrected? && Field(reply.value, "error").Str? ==>
              r.result == Failure(ErrorWithMessage(Field(reply.value, "error").s)))
    ensures r.store != store ==> r.result.Success? && r.result.value.Found?
  {
    var request := TokenRequestFor(cfg, code);
    match endpoint(request)
    case Failure(e) => Outcome(Failure(e), store)
    case Success(tokenBody) =>
      match Get(tokenBody, "error")
      case Failure(e) => Outcome(Failure(e), store)
      case Success(err) =>
        if Truthy(err) then
          Outcome(Failure(ProviderFailure(build, prims.stringify(TokenRequestJson(request)), tokenBody)), store)
        else PersistAuth(build, tokenBody, redirectPath, store, cfg, prims, nowMs)
  }

  /** `k` is new or has another value in `after`. */
  predicate Changed(before: Store, after: Store, k: string) {
    k in after && (k !in before || before[k] != after[k])
  }

  /** `handleRedirect`: the callback leg. A missing or unknown `state` is
      answered with `null` and a known state without `code` with `{}`,
      neither touching the store; with a code the exchange decides. Nothing
      is ever deleted (the state record survives even a login) and at most
      one key is written. */
  function HandleRedirect(
    build: Build, req: Request, store: Store, cfg: Config, prims: Primitives,
    endpoint: TokenRequest -> Result<Value, Exception>, nowMs: int): (r: Outcome<CallbackResponse>)
    ensures r.result == Success(NoAction) <==>
      Param(req, "state").None? || StateKey(Param(req, "state").value) !in store ||
      store[StateKey(Param(req, "state").value)] == ""
    ensures r.result == Success(NoAction) ==> r.store == store
    ensures var state := Param(req, "state");
      state.Some? && StateKey(state.value) in store && store[StateKey(state.value)] != "" ==>
        var stored := prims.parseJson(store[StateKey(state.value)]);
        && (stored.None? ==> r == Outcome(Failure(SyntaxError), store))
        && (stored.Some? && Nullish(stored.value) ==> r == Outcome(Failure(TypeError), store))
        && (stored.Some? && !Nullish(stored.value) && Param(req, "code").None? ==>
              r == Outcome(Success(EmptyResponse), store))
        && (stored.Some? && !Nullish(stored.value) && Param(req, "code").Some? ==>
              r == ExchangeCodeAndRedirect(build, Param(req, "code").value, Field(stored.value, "originalPath"),
                                           store, cfg, prims, endpoint, nowMs))
    ensures r.store != store ==> r.result.Success? && r.result.value.Found?
    ensures store.Keys <= r.store.Keys
    ensures forall k, k' :: Changed(store, r.store, k) && Changed(store, r.store, k') ==> k == k'
  {
    match Param(req, "state")
    case None => Outcome(Success(NoAction), store)
    case Some(state) =>
      var key := StateKey(state);
      if key !in store || store[key] == "" then Outcome(Success(NoAction), store)
      else
        match prims.parseJson(store[key])
        case None => Outcome(Failure(SyntaxError), store)
        case Some(stored) =>
          match Get(stored, "originalPath")
          case Failure(e) => Outcome(Failure(e), store)
          case Success(originalPath) =>
            match Param(req, "code")
            case Some(code) => ExchangeCodeAndRedirect(build, code, originalPath, store, cfg, prims, endpoint, nowMs)
            case None => Outcome(Success(EmptyResponse), store)
  }
}

=== FILE: settings.dfy ===
/** The deployment's configuration and the core's fixed constants. */
module Settings {

  /** The provider settings and the salt, read once from the environment. */
  datatype Config = Config(
    domain: string,
    clientId: string,
    clientSecret: string,
    callbackUrl: string,
    logoutUrl: string,
    salt: string)

  /** Name of the session cookie. */
  const CookieKey: string := "AUTH0-AUTH"

  /** Prefix that keeps authorization-state keys apart from session keys. */
  const StatePrefix: string := "state-"

  const DaySeconds: int := 86400
  const DayMs: int := 86_400_000

  /** Key of the pending-authorization record for `state`. */
  function StateKey(state: string): string {
    StatePrefix + state
  }
}

=== FILE: strings.dfy ===
/** String helpers with the meaning JavaScript gives them: `split` on a single
    character, its inverse `join`, `endsWith`, `includes`, replace-all of one
    character, and decimal conversion of integers. */
module Strings {
  import opened Wrappers

  /** The pieces between occurrences of `sep`, as `s.split(sep)` returns them
      for a one-character separator. */
  function Split(s: string, sep: char): (parts: seq<string>)
    ensures |parts| >= 1
    ensures |parts| == 1 <==> sep !in s
    ensures forall i :: 0 <= i < |parts| ==> sep !in parts[i]
    decreases |s|
  {
    if |s| == 0 then [""]
    else
      var rest := Split(s[1..], sep);
      assert s == [s[0]] + s[1..];
      if s[0] == sep then [""] + rest
      else [[s[0]] + rest[0]] + rest[1..]
  }

  /** The pieces glued back together with `sep` between neighbours (`parts.join(sep)`). */
  function Join(parts: seq<string>, sep: char): string
    requires |parts| >= 1
    decreases |parts|
  {
    if |parts| == 1 then parts[0] else parts[0] + [sep] + Join(parts[1..], sep)
  }

  lemma ConcatAssoc(a: string, b: string, c: string)
    ensures a + b + c == a + (b + c)
  {
  }

  lemma JoinCons(head: string, tail: seq<string>, sep: char)
    requires |tail| >= 1
    ensures Join([head] + tail, sep) == head + [sep] + Join(tail, sep)
  {
    assert ([head] + tail)[1..] == tail;
  }

  /** Joining the pieces of a split gives back the original string. */
  lemma {:induction false} SplitThenJoin(s: string, sep: char)
    ensures Join(Split(s, sep), sep) == s
    decreases |s|
  {
    if |s| > 0 {
      SplitThenJoin(s[1..], sep);
      var rest := Split(s[1..], sep);
      assert s == [s[0]] + s[1..];
      if s[0] == sep {
        JoinCons("", rest, sep);
      } else if |rest| == 1 {
        assert Split(s, sep) == [[s[0]] + rest[0]];
      } else {
        assert rest == [rest[0]] + rest[1..];
        JoinCons(rest[0], rest[1..], sep);
        JoinCons([s[0]] + rest[0], rest[1..], sep);
      }
    }
  }

  /** A string without the separator splits into itself alone. */
  lemma SplitWithoutSeparator(s: string, sep: char)
    requires sep !in s
    ensures Split(s, sep) == [s]
  {
    SplitThenJoin(s, sep);
  }

  /** A leading separator-free piece comes out of the split first. */
  lemma {:induction false} SplitAfterPiece(a: string, b: string, sep: char)
    requires sep !in a
    ensures Split(a + [sep] + b, sep) == [a] + Split(b, sep)
    decreases |a|
  {
    if |a| == 0 {
      assert (a + [sep] + b)[1..] == b;
    } else {
      SplitAfterPiece(a[1..], b, sep);
      assert (a + [sep] + b)[1..] == a[1..] + [sep] + b;
      assert a == [a[0]] + a[1..];
    }
  }

  /** Splitting a join of separator-free pieces gives back the pieces. */
  lemma {:induction false} JoinThenSplit(parts: seq<string>, sep: char)
    requires |parts| >= 1
    requires forall i :: 0 <= i < |parts| ==> sep !in parts[i]
    ensures Split(Join(parts, sep), sep) == parts
    decreases |parts|
  {
    if |parts| == 1 {
      SplitWithoutSeparator(parts[0], sep);
    } else {
      JoinThenSplit(parts[1..], sep);
      SplitAfterPiece(parts[0], Join(parts[1..], sep), sep);
      assert parts == [parts[0]] + parts[1..];
    }
  }

  /** The text before the first `sep`, and the text after it when there is one. */
  function SplitOnce(s: string, sep: char): (r: (string, Option<string>))
    ensures sep !in r.0
    ensures r.1.None? <==> sep !in s
    ensures r.1.None? ==> r.0 == s
    ensures r.1.Some? ==> s == r.0 + [sep] + r.1.value
    decreases |s|
  {
    if |s| == 0 then ("", None)
    else if s[0] == sep then ("", Some(s[1..]))
    else
      var t := SplitOnce(s[1..], sep);
      assert s == [s[0]] + s[1..];
      ([s[0]] + t.0, t.1)
  }

  /** `SplitOnce` finds the first separator. */
  lemma {:induction false} SplitOnceAt(a: string, b: string, sep: char)
    requires sep !in a
    ensures SplitOnce(a + [sep] + b, sep) == (a, Some(b))
    decreases |a|
  {
    if |a| == 0 {
      assert (a + [sep] + b)[1..] == b;
    } else {
      SplitOnceAt(a[1..], b, sep);
      assert (a + [sep] + b)[1..] == a[1..] + [sep] + b;
      assert a == [a[0]] + a[1..];
    }
  }

  /** A piece `name=value` split at its first `=`; without `=` the value is empty. */
  function NameValue(piece: string): (string, string) {
    var t := SplitOnce(piece, '=');
    (t.0, t.1.GetOr(""))
  }

  lemma Join4(a: string, b: string, c: string, d: string, sep: char)
    ensures Join([a, b, c, d], sep) == a + [sep] + b + [sep] + c + [sep] + d
  {
    var p := [a, b, c, d];
    assert p[1..][1..][1..] == [d];
    assert Join(p[1..][1..], sep) == c + [sep] + d;
    assert Join(p[1..], sep) == b + [sep] + (c + [sep] + d);
  }

  lemma Join5(a: string, b: string, c: string, d: string, e: string, sep: char)
    ensures Join([a, b, c, d, e], sep) == a + [sep] + b + [sep] + c + [sep] + d + [sep] + e
  {
    var p := [a, b, c, d, e];
    assert p[1..][1..][1..][1..] == [e];
    assert Join(p[1..][1..][1..], sep) == d + [sep] + e;
    assert Join(p[1..][1..], sep) == c + [sep] + (d + [sep] + e);
    assert Join(p[1..], sep) == b + [sep] + (c + [sep] + (d + [sep] + e));
  }

  predicate StartsWith(s: string, prefix: string) {
    |prefix| <= |s| && s[..|prefix|] == prefix
  }

  predicate EndsWith(s: string, suffix: string) {
    |suffix| <= |s| && s[|s| - |suffix|..] == suffix
  }

  /** `s.includes(t)`. */
  predicate Contains(s: string, t: string)
    decreases |s|
  {
    StartsWith(s, t) || (|s| > 0 && Contains(s[1..], t))
  }

  /** Every occurrence of `from` replaced by `to`, as `s.replace(/from/g, to)`. */
  function ReplaceAll(s: string, from: char, to: char): string {
    seq(|s|, i requires 0 <= i < |s| => if s[i] == from then to else s[i])
  }

  predicate IsDigit(c: char) {
    '0' <= c <= '9'
  }

  predicate AllDigits(s: string) {
    forall i :: 0 <= i < |s| ==> IsDigit(s[i])
  }

  function DigitChar(d: nat): char
    requires d < 10
  {
    "0123456789"[d]
  }

  /** The decimal numeral of `n` without leading zeros. */
  function NatToString(n: nat): string
    decreases n
  {
    if n < 10 then [DigitChar(n)] else NatToString(n / 10) + [DigitChar(n % 10)]
  }

  /** JavaScript's `String(n)` for an integral number. */
  function IntToString(n: int): string {
    if n < 0 then "-" + NatToString(-n) else NatToString(n)
  }

  /** The value of a string of decimal digits. */
  function DigitsValue(s: string): nat
    requires AllDigits(s)
    decreases |s|
  {
    if |s| == 0 then 0
    else DigitsValue(s[..|s| - 1]) * 10 + (s[|s| - 1] as int - '0' as int)
  }

  /** Code units a character takes in UTF-16, the unit JavaScript's
      `length` counts: two for a character outside the Basic Multilingual
      Plane, one otherwise. */
  function Utf16Units(c: char): nat {
    if c as int >= 0x1_0000 then 2 else 1
  }

  /** JavaScript's `s.length`: the number of UTF-16 code units. */
  function Utf16Length(s: string): nat
    decreases |s|
  {
    if |s| == 0 then 0 else Utf16Length(s[..|s| - 1]) + Utf16Units(s[|s| - 1])
  }

  /** Lengths in code units add up over a concatenation. */
  lemma {:induction false} Utf16LengthAppend(a: string, b: string)
    ensures Utf16Length(a + b) == Utf16Length(a) + Utf16Length(b)
    decreases |b|
  {
    if |b| == 0 {
      assert a + b == a;
    } else {
      Utf16LengthAppend(a, b[..|b| - 1]);
      assert (a + b)[..|a + b| - 1] == a + b[..|b| - 1];
    }
  }

  /** Text of the Basic Multilingual Plane has one code unit per character. */
  lemma {:induction false} Utf16LengthOfBmp(s: string)
    requires forall i :: 0 <= i < |s| ==> s[i] as int < 0x1_0000
    ensures Utf16Length(s) == |s|
    decreases |s|
  {
    if |s| > 0 {
      Utf16LengthOfBmp(s[..|s| - 1]);
    }
  }

  /** Two strings whose characters take the same number of code units place
      by place have the same length in code units. */
  lemma {:induction false} Utf16LengthPointwise(a: string, b: string)
    requires |a| == |b|
    requires forall i :: 0 <= i < |a| ==> Utf16Units(a[i]) == Utf16Units(b[i])
    ensures Utf16Length(a) == Utf16Length(b)
    decreases |a|
  {
    if |a| > 0 {
      Utf16LengthPointwise(a[..|a| - 1], b[..|b| - 1]);
    }
  }

  /** The white space `Number(...)` trims: ECMAScript's WhiteSpace and
      LineTerminator characters. */
  predicate IsJsWhiteSpace(c: char) {
    || c == '\t' || c == '\n' || c == '\U{B}' || c == '\U{C}' || c == '\r' || c == ' '
    || c == '\U{A0}' || c == '\U{1680}' || ('\U{2000}' <= c <= '\U{200A}')
    || c == '\U{2028}' || c == '\U{2029}' || c == '\U{202F}' || c == '\U{205F}'
    || c == '\U{3000}' || c == '\U{FEFF}'
  }

  /** `s` without its leading white space. */
  function TrimStart(s: string): (t: string)
    ensures |t| <= |s| && t == s[|s| - |t|..]
    ensures forall i :: 0 <= i < |s| - |t| ==> IsJsWhiteSpace(s[i])
    ensures |t| > 0 ==> !IsJsWhiteSpace(t[0])
    decreases |s|
  {
    if |s| > 0 && IsJsWhiteSpace(s[0]) then TrimStart(s[1..]) else s
  }

  /** `s` without its trailing white space. */
  function TrimEnd(s: string): (t: string)
    ensures |t| <= |s| && t == s[..|t|]
    ensures forall i :: |t| <= i < |s| ==> IsJsWhiteSpace(s[i])
    ensures |t| > 0 ==> !IsJsWhiteSpace(t[|t| - 1])
    decreases |s|
  {
    if |s| > 0 && IsJsWhiteSpace(s[|s| - 1]) then TrimEnd(s[..|s| - 1]) else s
  }

  /** `s.trim()`. */
  function Trim(s: string): string {
    TrimEnd(TrimStart(s))
  }
}

=== FILE: urls.dfy ===
/** The provider URLs the core builds (`generateRedirectUrl`, `logoutUrl`),
    and a reading of a URL's query into name/value pairs that shows which
    parameters a built URL carries. */
module Urls {
  import opened Wrappers
  import opened Strings
  import opened Settings
  import opened Foreign

  const Scope: string := "openid%20profile%20email"

  /** The parameters of the authorization URL, in the order it writes them. */
  function AuthorizeParams(cfg: Config, state: string, prims: Primitives): seq<(string, string)> {
    [("response_type", "code"), ("client_id", cfg.clientId), ("redirect_uri", cfg.callbackUrl),
     ("scope", Scope), ("state", prims.encodeUriComponent(state))]
  }

  /** The parameters of the logout URL. */
  function LogoutParams(cfg: Config): seq<(string, string)> {
    [("client_id", cfg.clientId), ("returnTo", cfg.logoutUrl)]
  }

  /** The provider's authorization URL for the state token `state`: the
      domain's `/authorize` endpoint with a query of five `name=value`
      parameters, of which only the state is encoded. */
  function AuthorizeUrl(cfg: Config, state: string, prims: Primitives): (url: string)
    ensures url == cfg.domain + "/authorize" + "?" + QueryText(AuthorizeParams(cfg, state, prims))
  {
    AuthorizeUrlText(cfg.domain, cfg.clientId, cfg.callbackUrl, prims.encodeUriComponent(state));
    cfg.domain + "/authorize?response_type=code&client_id=" + cfg.clientId
      + "&redirect_uri=" + cfg.callbackUrl
      + "&scope=" + Scope + "&state=" + prims.encodeUriComponent(state)
  }

  /** The provider's logout URL, returning to the configured page: the
      domain's `/v2/logout` endpoint with the client id and return target. */
  function LogoutUrl(cfg: Config): (url: string)
    ensures url == cfg.domain + "/v2/logout" + "?" + QueryText(LogoutParams(cfg))
  {
    var params := LogoutParams(cfg);
    assert QueryText(params[1..]) == "returnTo=" + cfg.logoutUrl;
    assert QueryText(params) == "client_id=" + cfg.clientId + "&" + QueryText(params[1..]);
    cfg.domain + "/v2/logout?client_id=" + cfg.clientId + "&returnTo=" + cfg.logoutUrl
  }

  function NameValues(pieces: seq<string>): seq<(string, string)>
    decreases |pieces|
  {
    if |pieces| == 0 then [] else [NameValue(pieces[0])] + NameValues(pieces[1..])
  }

  /** The raw (not percent-decoded) parameters after the first `?`, in order. */
  function QueryPairs(url: string): seq<(string, string)> {
    match SplitOnce(url, '?').1
    case None => []
    case Some(query) => NameValues(Split(query, '&'))
  }

  /** A query written as `&`-joined `name=value` pieces. */
  function QueryText(params: seq<(string, string)>): string
    requires |params| >= 1
    decreases |params|
  {
    var piece := params[0].0 + "=" + params[0].1;
    if |params| == 1 then piece else piece + "&" + QueryText(params[1..])
  }

  /** Names and values a query can carry unambiguously. */
  predicate PlainParams(params: seq<(string, string)>) {
    forall i :: 0 <= i < |params| ==> '&' !in params[i].0 && '=' !in params[i].0 && '&' !in params[i].1
  }

  /** Reading back a written query gives its parameters. */
  lemma {:induction false} QueryTextRoundTrip(params: seq<(string, string)>)
    requires |params| >= 1 && PlainParams(params)
    ensures '&' !in params[0].0 + "=" + params[0].1
    ensures NameValues(Split(QueryText(params), '&')) == params
    decreases |params|
  {
    var piece := params[0].0 + "=" + params[0].1;
    SplitOnceAt(params[0].0, params[0].1, '=');
    assert piece == params[0].0 + ['='] + params[0].1;
    assert NameValue(piece) == params[0];
    if |params| == 1 {
      SplitWithoutSeparator(piece, '&');
      assert NameValues([piece]) == [NameValue(piece)] + NameValues([]);
    } else {
      QueryTextRoundTrip(params[1..]);
      SplitAfterPiece(piece, QueryText(params[1..]), '&');
      assert piece + "&" + QueryText(params[1..]) == piece + ['&'] + QueryText(params[1..]);
      var rest := Split(QueryText(params[1..]), '&');
      assert ([piece] + rest)[1..] == rest;
      assert params == [params[0]] + params[1..];
    }
  }

  /** A URL whose query is written from plain parameters reads back as those. */
  lemma UrlQueryRoundTrip(base: string, params: seq<(string, string)>)
    requires '?' !in base
    requires |params| >= 1 && PlainParams(params)
    ensures QueryPairs(base + "?" + QueryText(params)) == params
  {
    SplitOnceAt(base, QueryText(params), '?');
    assert base + "?" + QueryText(params) == base + ['?'] + QueryText(params);
    QueryTextRoundTrip(params);
  }

  /** Regrouping of a concatenation of nine strings to the right. */
  lemma RightNest9(a: string, b: string, c: string, d: string, e: string, f: string, g: string, h: string, i: string)
    ensures a + b + c + d + e + f + g + h + i == a + (b + (c + (d + (e + (f + (g + (h + i)))))))
  {
    ConcatAssoc(a + b + c + d + e + f + g, h, i);
    ConcatAssoc(a + b + c + d + e + f, g, h + i);
    ConcatAssoc(a + b + c + d + e, f, g + (h + i));
    ConcatAssoc(a + b + c + d, e, f + (g + (h + i)));
    ConcatAssoc(a + b + c, d, e + (f + (g + (h + i))));
    ConcatAssoc(a + b, c, d + (e + (f + (g + (h + i)))));
    ConcatAssoc(a, b, c + (d + (e + (f + (g + (h + i))))));
  }

  lemma ScopeAndStateText(e: string)
    ensures "&scope=" + (Scope + ("&state=" + e)) == "&" + ("scope" + "=" + Scope + "&" + ("state" + "=" + e))
  {
    var a, b := "scope" + "=", "state" + "=";
    assert "&scope=" == "&" + a;
    assert "&state=" == "&" + b;
    ConcatAssoc("&", b, e);
    ConcatAssoc(a + Scope, "&", b + e);
    ConcatAssoc(a, Scope, "&" + (b + e));
    ConcatAssoc("&", a, Scope + ("&" + (b + e)));
  }

  lemma RedirectUriText(cb: string, rest: string)
    ensures "&redirect_uri=" + (cb + ("&" + rest)) == "&" + ("redirect_uri" + "=" + cb + "&" + rest)
  {
    var r := "redirect_uri" + "=";
    assert "&redirect_uri=" == "&" + r;
    ConcatAssoc("&", r, cb + ("&" + rest));
    ConcatAssoc(r + cb, "&", rest);
    ConcatAssoc(r, cb, "&" + rest);
  }

  lemma ClientIdText(id: string, rest: string)
    ensures "/authorize?response_type=code&client_id=" + (id + ("&" + rest))
         == "/authorize" + ("?" + ("response_type" + "=" + "code" + "&" + ("client_id" + "=" + id + "&" + rest)))
  {
    var c := "client_id" + "=";
    var y := id + ("&" + rest);
    ConcatAssoc(c + id, "&", rest);
    ConcatAssoc(c, id, "&" + rest);
    assert c + id + "&" + rest == c + y;
    var p, h := "response_type" + "=" + "code" + "&", "/authorize" + "?";
    assert "/authorize?response_type=code&client_id=" == h + p + c;
    ConcatAssoc(h + p, c, y);
    ConcatAssoc(h, p, c + y);
    ConcatAssoc("/authorize", "?", p + (c + y));
  }

  /** The query of the authorization URL, written out. */
  lemma AuthorizeQueryText(id: string, cb: string, e: string)
    ensures var params := [("response_type", "code"), ("client_id", id), ("redirect_uri", cb), ("scope", Scope), ("state", e)];
      QueryText(params) == "response_type" + "=" + "code" + "&" + ("client_id" + "=" + id + "&" +
        ("redirect_uri" + "=" + cb + "&" + ("scope" + "=" + Scope + "&" + ("state" + "=" + e))))
  {
    var params := [("response_type", "code"), ("client_id", id), ("redirect_uri", cb), ("scope", Scope), ("state", e)];
    assert params[4..][1..] == [] && params[3..][1..] == params[4..] && params[2..][1..] == params[3..];
    assert params[1..][1..] == params[2..];
    assert QueryText(params[4..]) == "state" + "=" + e;
    assert QueryText(params[3..]) == "scope" + "=" + Scope + "&" + QueryText(params[4..]);
    assert QueryText(params[2..]) == "redirect_uri" + "=" + cb + "&" + QueryText(params[3..]);
    assert QueryText(params[1..]) == "client_id" + "=" + id + "&" + QueryText(params[2..]);
  }

  /** The authorization URL's template is the domain, `/authorize`, `?` and
      the query written from its five parameters. */
  lemma AuthorizeUrlText(D: string, C: string, CB: string, E: string)
    ensures D + "/authorize?response_type=code&client_id=" + C + "&redirect_uri=" + CB
              + "&scope=" + Scope + "&state=" + E
         == D + "/authorize" + "?" + QueryText([("response_type", "code"), ("client_id", C),
                                                ("redirect_uri", CB), ("scope", Scope), ("state", E)])
  {
    var params := [("response_type", "code"), ("client_id", C), ("redirect_uri", CB), ("scope", Scope), ("state", E)];
    AuthorizeQueryText(C, CB, E);
    var Q3 := "scope" + "=" + Scope + "&" + ("state" + "=" + E);
    var Q2 := "redirect_uri" + "=" + CB + "&" + Q3;
    var Q1 := "client_id" + "=" + C + "&" + Q2;
    var Q0 := "response_type" + "=" + "code" + "&" + Q1;
    assert QueryText(params) == Q0;
    ScopeAndStateText(E);
    var L1, L2, L3, L4 := "/authorize?response_type=code&client_id=", "&redirect_uri=", "&scope=", "&state=";
    RedirectUriText(CB, Q3);
    ClientIdText(C, Q2);
    RightNest9(D, L1, C, L2, CB, L3, Scope, L4, E);
    assert L2 + (CB + (L3 + (Scope + (L4 + E)))) == "&" + Q2;
    assert L1 + (C + (L2 + (CB + (L3 + (Scope + (L4 + E)))))) == "/authorize" + ("?" + Q0);
    ConcatAssoc(D + "/authorize", "?", Q0);
    ConcatAssoc(D, "/authorize", "?" + Q0);
  }

  /** The authorization URL carries, in order, the response type, client id,
      callback, scope and the encoded state, provided none of the inserted
      values contains `&` and the domain has no `?`. */
  lemma AuthorizeUrlQuery(cfg: Config, state: string, prims: Primitives)
    requires '?' !in cfg.domain
    requires '&' !in cfg.clientId && '&' !in cfg.callbackUrl
    requires '&' !in prims.encodeUriComponent(state)
    ensures QueryPairs(AuthorizeUrl(cfg, state, prims)) ==
      [("response_type", "code"), ("client_id", cfg.clientId), ("redirect_uri", cfg.callbackUrl),
       ("scope", Scope), ("state", prims.encodeUriComponent(state))]
  {
    UrlQueryRoundTrip(cfg.domain + "/authorize", AuthorizeParams(cfg, state, prims));
  }

  /** The logout URL carries the client id and the return target, provided
      neither contains `&` and the domain has no `?`. */
  lemma LogoutUrlQuery(cfg: Config)
    requires '?' !in cfg.domain
    requires '&' !in cfg.clientId && '&' !in cfg.logoutUrl
    ensures QueryPairs(LogoutUrl(cfg)) == [("client_id", cfg.clientId), ("returnTo", cfg.logoutUrl)]
  {
    UrlQueryRoundTrip(cfg.domain + "/v2/logout", LogoutParams(cfg));
  }
}

=== FILE: wrappers.dfy ===
/** Optional values and results with an error, as the rest of the model uses them. */
module Wrappers {

  /** A value that may be absent: JavaScript's `undefined`/`null` answer. */
  datatype Option<+T> = None | Some(value: T) {

    /** The carried value, or `default` when there is none. */
    function GetOr(default: T): T {
      match this
      case Some(v) => v
      case None => default
    }
  }

  /** The outcome of a computation that may throw: `Failure` carries what was thrown. */
  datatype Result<+T, +E> = Success(value: T) | Failure(error: E)
}
